=== FILE: README.md ===
# Observatory controller, modelled in Dafny

`observatory.py` drives a small remote observatory through INDI device
properties and the PHD2 guiding daemon. A single dispatcher, `observatory`,
maps a command name to one of seven handlers:

- the red light, telescope cover and roof switches;
- a focus nudge;
- the FITS viewer;
- a slew to a named target;
- a guided imaging sequence.

The slew and the sequence resolve the target in a catalogue. Below 20 degrees
of altitude they ask the operator whether to go on. The sequence then:

1. creates a time-stamped session directory;
2. enables multi-star guiding and starts guiding;
3. runs `exposure_count` passes, each a dither (except the first) followed by
   one capture through the chosen filter;
4. stops guiding and logs completion.

This project models each handler as a pure function that returns a `Run`:
the ordered list of events the handler causes, and whether it returned or
raised.

- **Events**: INDI writes, guider requests, directory creation, viewer launch,
  sleeps, the operator prompt, log lines.
- **`Then`**: models Python statement sequencing. Once a step raises, nothing
  after it happens.
- **`Env`**: holds what the code learns from outside:
  - the catalogue result (`coords`);
  - the target's altitude;
  - the operator's reply;
  - the wall clock;
  - the guiding daemon's replies.

Properties are stated over projections of a trace:

- `Effects`: what reaches the outside world.
- `Checkpoints`: the prompt, the session directory and the guider requests.
- `Milestones`: saved frames and dithers.
- `Writes` and `LastWrite`: the numeric property writes, and the value each
  property was last set to.
- `Asks`: the altitudes the operator was prompted with.

Modules follow the program's layers:

| module | file | contents |
|---|---|---|
| `Trace` | `trace.dfy` | events, runs, projections |
| `Format` | `format.dfy` | `{n:04d}` padding and ASCII `str.lower` |
| `Equipment` | `equipment.dfy` | filter table, property toggle, capture, dither, focus, slew, viewer |
| `Sequencer` | `sequencer.dfy` | altitude gate, slew command, imaging sequence |
| `Dispatch` | `dispatch.dfy` | command table and dispatcher |
| `Scenarios` | `scenarios.dfy` | a three-frame M42 session and an unknown target |

Behaviour of `observatory.py` worth knowing:

- **No slew in the sequence.** `observatory_sequence` never slews; only the
  `target` command moves the mount to the target.
- **Guider replies ignored.** The boolean results of the guider calls are
  discarded. Guiding is started and stopped whatever the daemon answers
  (`SequenceIgnoresGuideReplies`).
- **Dither.** A dither drives both axes to 1, then writes 0 to each.
- **Exceptions escape.** When `exposure_count` is at least 1, an unknown
  filter name, or an exposure time below -2 s, raises out of the first
  capture and out of the sequence. Guiding is then left running
  (`SequenceStopsOnCaptureFault`). With `exposure_count` at or below 0 no
  capture runs, so neither raises and the sequence completes.
- **Local time.** Time stamps come from the local clock, although the
  format appends `UT`. The model takes the clock's strings as given.

## Model

| member | source | states |
|---|---|---|
| Trace.IndiNamesDistinct | observatory.py:29-32 | the four device names set here and the three written inline in the mount, wheel and camera calls are pairwise different, so each INDI name addresses one device |
| Equipment.FilterTable | observatory.py:28 | the filter table holds exactly L, R, G, B, H and O, in six distinct wheel slots between 1 and 6 |
| Equipment.PropertyWrite | observatory.py:35-37 | setting a device property writes exactly that one switch, with the requested state, and prompts, guides and creates nothing |
| Format.DecimalSpells | observatory.py:87 | the decimal spelling of an index is a non-empty digit string, reads back as the index, and has no superfluous leading zero |
| Format.Pad4Spells | observatory.py:87 | `{count:04d}` reads back as the index; it is exactly four digits for indices up to 9999, and only wider past that, where it is the unpadded spelling |
| Format.Pad4Injective | observatory.py:87 | distinct indices never share a padded spelling |
| Format.LowerIsY | observatory.py:114 | lower-casing the reply gives "y" exactly for the replies "y" and "Y" |
| Equipment.CaptureSteps | observatory.py:78-89 | a capture selects the filter's slot, waits 2 s, commands the exposure, waits the exposure plus 2 s and saves under the frame name, then logs that name; an unknown filter raises KeyError before any command; a negative wait raises after the exposure command |
| Equipment.CaptureMilestone | observatory.py:78-89 | a capture returns exactly when the filter is known and the wait is non-negative, and then it has saved one frame under its frame name; a failed capture saves nothing |
| Equipment.CaptureNoGuiding | observatory.py:78-89 | whatever its outcome, a capture never prompts, never creates a directory and never talks to the guider |
| Equipment.CaptureLeavesMount | observatory.py:78-89 | whatever its outcome, a capture never writes either mount motion axis |
| Equipment.CaptureCommands | observatory.py:78-89 | a successful capture writes exactly the filter's wheel slot and then the exposure time, and waits exactly 2 s and then the exposure plus 2 s |
| Equipment.CaptureEffects | observatory.py:78-89 | a capture's effects are nothing on an unknown filter, the slot and exposure commands when the wait is negative, and those two followed by the camera's save path under the frame name when it succeeds |
| Equipment.CaptureOnlyImaging | observatory.py:78-89 | whatever its outcome, a capture issues nothing but numeric writes and the camera's save path |
| Equipment.FrameNamesDistinct | observatory.py:86-87 | two frames of one directory and filter taken in the same minute get different file names when their indices differ |
| Equipment.DitherIsOneMilestone | observatory.py:91-97 | a dither counts as one dither, saves nothing and holds no control point |
| Equipment.DitherStopsMount | observatory.py:91-97 | a dither writes north-south 1, west-east 1, north-south 0, west-east 0 in that order, so both axes are last set to 0 |
| Equipment.DitherPauses | observatory.py:91-97 | a dither is six steps: the north-south pulse, 1 s, the west-east pulse, 1 s, then the two stops; it waits at no other point |
| Equipment.DitherEffects | observatory.py:91-97 | a dither's effects are exactly the four mount axis writes, north-south 1, west-east 1, north-south 0, west-east 0 |
| Equipment.FocusStopsMotor | observatory.py:99-103 | a focus nudge writes focuser motion 1, holds 2 s as its second step and only wait, then writes 0; it has no other effect, so the motor is last set to 0 |
| Equipment.SlewMovesOnce | observatory.py:60-64 | a slew first sends one equatorial coordinate command with the target's right ascension and declination to the mount, then waits 10 s, then logs the position; it does nothing else outside the process |
| Equipment.ViewerOpensImage | observatory.py:117-119 | showing an image launches the viewer once, on the path made of the directory, a slash, the image name and `.fits` |
| Sequencer.Gate | observatory.py:111-115 | at or above 20 degrees the gate passes without asking; below it, it asks once with the altitude and passes exactly on "y" or "Y" |
| Sequencer.Admit | observatory.py:128-132 | the shared prefix is unresolved exactly when the catalogue has nothing, and admits exactly when the target is known and the gate passes; its events are the not-found log or the prompt |
| Sequencer.TargetSlewsOnlyWhenAdmitted | observatory.py:128-137 | the slew command always returns; when admitted, its trace is the prompt (if any) followed by the slew to the resolved position, whose only effect is one coordinate write; a declined slew is exactly the prompt and the aborted log; an unknown target gives exactly the two error logs; only an admitted slew has an effect |
| Sequencer.TargetCheckpoints | observatory.py:128-137 | the slew command's only control point is the prompt, when there is one |
| Sequencer.TargetPrompts | observatory.py:128-137 | the slew command prompts once, with the altitude, exactly when a known target is below 20 degrees |
| Sequencer.InterleavedCounts | observatory.py:147-150 | n passes of the loop's shape hold exactly n frames and n - 1 dithers (none for n = 0) |
| Sequencer.DithersBetweenFrames | observatory.py:147-150 | no dither comes first or last, and each dither sits between frames k and k + 1 |
| Sequencer.PassMilestones | observatory.py:147-150 | a successful pass is a dither (except on the first pass) followed by one saved frame with index i + 1 |
| Sequencer.AlternatesExtend | observatory.py:147-150 | appending one more pass to an alternation of k - 1 passes gives an alternation of k passes |
| Sequencer.RoundsReturn | observatory.py:147-150 | when every capture can succeed, the loop returns normally for any number of passes |
| Sequencer.RoundsWrites | observatory.py:147-150 | when captures succeed, the loop's numeric writes are the first capture's slot and exposure, then for each further pass the four dither writes followed by the slot and exposure again |
| Sequencer.RoundsWaits | observatory.py:147-150 | when captures succeed, the loop waits 2 s and the exposure plus 2 s per capture, and 1 s after each of the two dither pulses before every capture but the first |
| Sequencer.RoundsAlternate | observatory.py:147-150 | when captures succeed, k passes return and alternate frame 1, dither, frame 2, ..., frame k, each frame named by its index and its own clock reading |
| Sequencer.RoundsHoldNoCheckpoint | observatory.py:147-150 | the loop, whatever happens, never prompts, creates a directory or talks to the guider |
| Sequencer.RoundsOnlyImaging | observatory.py:147-150 | the loop, whatever happens, issues nothing but numeric writes and the camera's save path |
| Sequencer.RoundsLeaveMountAtRest | observatory.py:147-150 | the loop, whatever happens, leaves both mount axes never driven or last set to 0 |
| Sequencer.RoundsFailFirst | observatory.py:147-150 | when the capture cannot succeed, the loop stops at the first capture and raises what that capture raises |
| Sequencer.SequenceAbortsEarly | observatory.py:139-156 | an unknown target or a declined prompt ends the sequence normally with no effect and no frame, with exactly the two not-found logs or the prompt and the aborted log |
| Sequencer.SequenceCompletes | observatory.py:139-152 | an admitted sequence whose captures succeed returns; its control points are the prompt if any, the directory, multi-star mode, start and exactly one stop of guiding, in that order; and it ends with the completion log |
| Sequencer.SequenceAlternates | observatory.py:143-152 | the frames of a completed sequence are numbered 1..count in the session directory, with a dither between each two |
| Sequencer.SequenceCounts | observatory.py:147-150 | a completed sequence saves max(count, 0) frames and dithers one time fewer (never below zero) |
| Sequencer.SequenceGuidesAroundFrames | observatory.py:144-151 | every frame and dither of a completed sequence lies after the start of guiding and before the stop, which is second to last |
| Sequencer.SequenceWrites | observatory.py:139-152 | a completed sequence's numeric writes are exactly its captures' slot and exposure commands with the four dither writes between each two captures, and none when the count is at or below 0 whatever the filter; setup and teardown write none |
| Sequencer.SequenceWaits | observatory.py:139-152 | a completed sequence waits only inside its passes: 2 s and the exposure plus 2 s per capture, and 1 s after each dither pulse; it waits nowhere when the count is at or below 0, whatever the filter |
| Sequencer.SequenceOnlyImaging | observatory.py:139-156 | on every path, each effect of a sequence is the session directory, a guider request, a numeric property write or the camera's save path: it never switches the light, cover or roof, never slews and never opens the viewer |
| Sequencer.FramesInDirectory | observatory.py:87 | every frame of an alternation is saved directly inside the session directory |
| Sequencer.SequenceUsesSessionDir | observatory.py:105-109 | a completed sequence creates `{base_directory}/{target}_{time}` right after the prompt, and saves every frame inside that directory |
| Sequencer.SequenceLeavesMountAtRest | observatory.py:139-152 | a completed sequence leaves both mount axes at rest |
| Sequencer.SequenceStopsOnCaptureFault | observatory.py:146-151 | when `exposure_count` is at least 1 and the filter is unknown or the exposure below -2 s, the first capture raises out of the sequence: no frame is saved, guiding is started but never stopped, and an unknown filter leaves nothing after the start of guiding |
| Sequencer.SequencePrompts | observatory.py:139-156 | the sequence prompts once, with the altitude, exactly when a known target is below 20 degrees |
| Sequencer.SequenceIgnoresGuideReplies | observatory.py:66-76 | the guiding daemon's replies do not change anything the sequence does |
| Dispatch.CommandNames | observatory.py:169-177 | the command table holds exactly the seven command names |
| Dispatch.ObservatoryRejectsUnknown | observatory.py:179-182 | the dispatcher answers with nothing but the unknown-command error exactly when the name is not in its table |
| Dispatch.ObservatorySwitches | observatory.py:122-126 | set_light and telescope_cover each write one switch (LIGHT_STATE of the red light, COVER_STATE of the cover) to the requested state, and do nothing else outside the process |
| Dispatch.ObservatoryRoof | observatory.py:164-165 | roof writes ROOF_STATE of the roof to the requested state and does nothing else outside the process |
| Dispatch.ObservatoryFocusAndView | observatory.py:158-162 | focus drives the focuser to 1 and back to 0 only; showimage only opens the viewer on `{directory}/{image_name}.fits` |
| Dispatch.ObservatoryRoutesTargets | observatory.py:168-180 | target and sequence run their handler with the matching keyword arguments |
| Dispatch.ObservatoryPrompts | observatory.py:168-182 | of all commands, only target and sequence ever prompt, once and with the altitude, exactly when a known target is below 20 degrees |
| Dispatch.InvokeAsks | observatory.py:122-165 | of the seven handlers, only the slew and the sequence can prompt, once and with the altitude, exactly when a known target is below 20 degrees |
| Scenarios.M42Returns | observatory.py:139-152 | a three-exposure R session on M42 at 45 degrees returns without a prompt |
| Scenarios.M42Session | observatory.py:139-152 | that session creates its directory, enables multi-star mode, starts guiding and stops it once |
| Scenarios.M42Frames | observatory.py:147-150 | that session saves R_<time>_0001.fits to R_<time>_0003.fits with a dither between each two |
| Scenarios.UnknownTargetSlew | observatory.py:128-137 | target on a name the catalogue does not know gives exactly the two error logs |

## Left out

- INDI transport: a property write is an event. Whether the driver accepted it is never read by the code, so it is not modelled.
- PHD2 HTTP calls: guider requests are events. Replies are an `Env` input that nothing reads. Network exceptions and JSON errors from `requests` are not modelled.
- Catalogue lookup and coordinate transform (Simbad, astropy): become the `coords` and `altitude` inputs. Their own failures are not modelled. A NaN altitude is not representable: altitudes are reals.
- Mount location for `check_altitude`: part of the altitude input.
- `time.sleep`: a `Sleep(seconds)` event. Its only modelled failure is a negative length, which raises.
- `datetime.now`: the clock input. `clock(0)` names the session directory and `clock(i)` frame i, because the code reads the clock again for each capture. The strftime format itself is not modelled.
- `input()`: the reply input. The prompt's wording and number formatting are not modelled, nor is the `EOFError` it raises on a closed standard input.
- `os.makedirs`: a `MakeDir` event. Its failures (permissions, a file in the way) are not modelled.
- `os.system("ds9 ...")`: a `Viewer` event. Shell quoting and the background process are not modelled.
- Logging: the level and which message are modelled; timestamps and text formatting are not.
- Module-level initialisation (logging setup, INDI client connection): not modelled.
- Keyword arguments: `Args` carries every handler's parameters. The TypeError Python raises for missing or unexpected keyword arguments is not modelled.
- Format.Lower: models `str.lower` on ASCII letters only; no other character lowers to "y" in Python either.
- The `__main__` example block: not modelled.

=== FILE: dispatch.dfy ===
/** The command dispatcher `observatory` and the one-line handlers it routes
    to: the red light, the telescope cover and the roof switches, the
    focuser, the image viewer, the slew and the imaging sequence. */
module Dispatch {
  import opened Trace
  import opened Equipment
  import opened Sequencer

  /** The keyword arguments of one call of `observatory`. Each handler reads
      only the fields that stand for its own parameters. */
  datatype Args = Args(
    state: string,          // set_light, telescope_cover, roof
    targetName: string,     // target
    target: string,         // sequence
    baseDirectory: string,  // sequence
    filterName: string,     // sequence
    exposureCount: int,     // sequence
    exposureTime: real,     // sequence
    directory: string,      // showimage
    imageName: string)      // showimage

  datatype Handler =
    | SetLight | CoverTelescope | SlewToTarget | RunSequence | FocusTelescope | DisplayImage | OperateRoof

  /** The dispatcher's command table. */
  const Commands: map<string, Handler> := map[
    "set_light" := SetLight,
    "telescope_cover" := CoverTelescope,
    "target" := SlewToTarget,
    "sequence" := RunSequence,
    "focus" := FocusTelescope,
    "showimage" := DisplayImage,
    "roof" := OperateRoof]

  /** The arguments of `observatory_sequence`, taken from the keyword arguments. */
  function PlanOf(args: Args): Plan {
    Plan(args.target, args.baseDirectory, args.filterName, args.exposureCount, args.exposureTime)
  }

  /** One handler applied to the call's keyword arguments. */
  function Invoke(h: Handler, args: Args, env: Env): Run {
    match h
    case SetLight => Run(SetProperty(RedLight, "LIGHT_STATE", args.state), Returned)
    case CoverTelescope => Run(SetProperty(TelescopeCover, "COVER_STATE", args.state), Returned)
    case SlewToTarget => Target(args.targetName, env)
    case RunSequence => Sequence(PlanOf(args), env)
    case FocusTelescope => Run(Focus(), Returned)
    case DisplayImage => Run(ShowImage(args.directory, args.imageName), Returned)
    case OperateRoof => Run(SetProperty(Roof, "ROOF_STATE", args.state), Returned)
  }

  /** `observatory(command, **kwargs)`: run the named handler, or log the
      unknown name and do nothing else. */
  function Observatory(command: string, args: Args, env: Env): Run {
    if command in Commands then Invoke(Commands[command], args, env)
    else Run([Log(Error, UnknownCommand(command))], Returned)
  }

  /** The table holds exactly the seven command names. */
  lemma CommandNames(command: string)
    ensures command in Commands
        <==> command in {"set_light", "telescope_cover", "target", "sequence", "focus", "showimage", "roof"}
  {
  }

  /** The dispatcher answers with nothing but the unknown-command error
      exactly when the name is not in its table. */
  lemma ObservatoryRejectsUnknown(command: string, args: Args, env: Env)
    ensures Observatory(command, args, env) == Run([Log(Error, UnknownCommand(command))], Returned)
        <==> command !in Commands
  {
    if command in Commands {
      var r := Observatory(command, args, env);
      match Commands[command]
      case SlewToTarget =>
        TargetSlewsOnlyWhenAdmitted(args.targetName, env);
        assert 2 <= |r.trace|;
      case RunSequence =>
        SequenceNotSilent(PlanOf(args), env);
      case _ =>
    }
  }

  /** The light and cover commands each write one switch property of their
      own device to the requested state, and prompt, guide and create nothing. */
  lemma ObservatorySwitches(command: string, args: Args, env: Env)
    requires command in {"set_light", "telescope_cover"}
    ensures var r := Observatory(command, args, env);
      && r.status == Returned
      && Checkpoints(r.trace) == []
      && Effects(r.trace) == [Device(
           if command == "set_light" then SetSwitch(RedLight, "LIGHT_STATE", args.state)
           else SetSwitch(TelescopeCover, "COVER_STATE", args.state))]
  {
    if command == "set_light" {
      PropertyWrite(RedLight, "LIGHT_STATE", args.state);
    } else {
      PropertyWrite(TelescopeCover, "COVER_STATE", args.state);
    }
  }

  /** The roof command writes the roof's switch to the requested state and
      prompts, guides and creates nothing. */
  lemma ObservatoryRoof(args: Args, env: Env)
    ensures var r := Observatory("roof", args, env);
      && r.status == Returned
      && Checkpoints(r.trace) == []
      && Effects(r.trace) == [Device(SetSwitch(Roof, "ROOF_STATE", args.state))]
  {
    PropertyWrite(Roof, "ROOF_STATE", args.state);
  }

  /** `focus` drives the focuser out and back to rest and does nothing else
      outside the process; `showimage` only opens the viewer on the named file. */
  lemma ObservatoryFocusAndView(command: string, args: Args, env: Env)
    requires command in {"focus", "showimage"}
    ensures var r := Observatory(command, args, env);
      && r.status == Returned
      && Checkpoints(r.trace) == []
      && (command == "focus" ==>
            && Effects(r.trace) == [Device(SetNumber(Focuser, FocusMotion, "FOCUS_MOTION_VALUE", 1.0)),
                                    Device(SetNumber(Focuser, FocusMotion, "FOCUS_MOTION_VALUE", 0.0))]
            && LastWrite(r.trace, Focuser, FocusMotion) == Some(0.0))
      && (command == "showimage" ==>
            Effects(r.trace) == [Viewer(args.directory + "/" + args.imageName + ".fits")])
  {
    var r := Observatory(command, args, env);
    if command == "focus" {
      FocusStopsMotor();
    } else {
      Pick1(r.trace[0], EffectOf);
      Pick1(r.trace[0], CheckpointOf);
    }
  }

  /** `target` and `sequence` run their handler on the matching keyword arguments. */
  lemma ObservatoryRoutesTargets(command: string, args: Args, env: Env)
    requires command in {"target", "sequence"}
    ensures command == "target" ==> Observatory(command, args, env) == Target(args.targetName, env)
    ensures command == "sequence" ==>
              (Observatory(command, args, env)
               == Sequence(Plan(args.target, args.baseDirectory, args.filterName, args.exposureCount, args.exposureTime), env))
  {
  }

  /** Of all commands, only `target` and `sequence` ever prompt the operator,
      and they do so once, with the altitude, exactly when a known target is
      below the threshold. */
  lemma ObservatoryPrompts(command: string, args: Args, env: Env)
    ensures Asks(Observatory(command, args, env).trace)
         == if (command == "target" || command == "sequence") && env.coords.Some? && env.altitude < MinAltitude
            then [env.altitude] else []
  {
    if command in Commands {
      InvokeAsks(Commands[command], args, env);
      PromptingCommands(command);
    } else {
      NoAsks(Observatory(command, args, env).trace);
    }
  }

  /** Only the slew and the sequence handlers can prompt. */
  lemma InvokeAsks(h: Handler, args: Args, env: Env)
    ensures Asks(Invoke(h, args, env).trace)
         == if (h == SlewToTarget || h == RunSequence) && env.coords.Some? && env.altitude < MinAltitude
            then [env.altitude] else []
  {
    match h
    case SlewToTarget => TargetPrompts(args.targetName, env);
    case RunSequence => SequencePrompts(PlanOf(args), env);
    case _ => NoAsks(Invoke(h, args, env).trace);
  }

  /** "target" and "sequence" are the names of the slew and the sequence handlers. */
  lemma PromptingCommands(command: string)
    requires command in Commands
    ensures Commands[command] == SlewToTarget <==> command == "target"
    ensures Commands[command] == RunSequence <==> command == "sequence"
  {
  }
}

=== FILE: equipment.dfy ===
/** The fixed equipment of the observatory and the device-level routines the
    command handlers are built from: a property toggle, one filtered
    capture, a dither pulse, a focus pulse and the image viewer launch. */
module Equipment {
  import opened Trace
  import opened Format

  const MotionNS := "TELESCOPE_MOTION_NS"
  const MotionWE := "TELESCOPE_MOTION_WE"
  const FocusMotion := "FOCUS_MOTION"

  /** Filter name to filter-wheel slot. */
  const Filters: map<string, nat> := map["L" := 1, "R" := 2, "G" := 3, "B" := 4, "H" := 5, "O" := 6]

  /** The table holds exactly the six filters, in six distinct slots 1..6. */
  lemma FilterTable()
    ensures Filters.Keys == {"L", "R", "G", "B", "H", "O"}
    ensures forall f :: f in Filters ==> 1 <= Filters[f] <= 6
    ensures forall f, g :: f in Filters && g in Filters && f != g ==> Filters[f] != Filters[g]
  {
  }

  /** `set_device_property`: one switch write, then a log line. */
  function SetProperty(device: Instrument, property: string, state: string): seq<Event> {
    [Device(SetSwitch(device, property, state)), Log(Info, PropertySet(device, property, state))]
  }

  /** A property toggle writes the one switch it names, and nothing else. */
  lemma PropertyWrite(device: Instrument, property: string, state: string)
    ensures Effects(SetProperty(device, property, state)) == [Device(SetSwitch(device, property, state))]
    ensures Checkpoints(SetProperty(device, property, state)) == []
  {
    var t := SetProperty(device, property, state);
    Pick2(t[0], t[1], EffectOf);
    Pick2(t[0], t[1], CheckpointOf);
  }

  /** `f"{directory}/{filter_name}_{timestamp}_{count:04d}.fits"`. */
  function FrameName(directory: string, filter: string, stamp: string, index: nat): string {
    directory + "/" + filter + "_" + stamp + "_" + Pad4(index) + ".fits"
  }

  /** Two frames of one sequence taken within the same minute still get
      different file names, because their indices differ. */
  lemma FrameNamesDistinct(directory: string, filter: string, stamp: string, i: nat, j: nat)
    requires i != j
    ensures FrameName(directory, filter, stamp, i) != FrameName(directory, filter, stamp, j)
  {
    var head := directory + "/" + filter + "_" + stamp + "_";
    var a := FrameName(directory, filter, stamp, i);
    var b := FrameName(directory, filter, stamp, j);
    assert a == head + (Pad4(i) + ".fits");
    assert b == head + (Pad4(j) + ".fits");
    if a == b {
      assert a[|head|..] == Pad4(i) + ".fits";
      assert b[|head|..] == Pad4(j) + ".fits";
      var x := Pad4(i) + ".fits";
      assert x[..|x| - 5] == Pad4(i);
      assert x[..|x| - 5] == Pad4(j);
      Pad4Injective(i, j);
    }
  }

  /** What the sequence is made of, read off a trace: each saved frame and each dither. */
  datatype Milestone = Saved(path: string) | Dithered

  function MilestoneOf(e: Event): Option<Milestone> {
    match e
    case Device(SetText(d, p, _, path)) =>
      if d == Camera && p == "CCD_SAVE" then Some(Saved(path)) else None
    case Device(SetNumber(d, p, _, v)) =>
      if d == Mount && p == MotionNS && v == 1.0 then Some(Dithered) else None
    case _ => None
  }

  function Milestones(t: seq<Event>): seq<Milestone> {
    Pick(t, MilestoneOf)
  }

  lemma MilestonesAppend(a: seq<Event>, b: seq<Event>)
    ensures Milestones(a + b) == Milestones(a) + Milestones(b)
  {
    PickAppend(a, b, MilestoneOf);
  }

  /** The commands an imaging session issues: control points, numeric
      property writes and the camera's save path. */
  predicate ImagingCommand(e: Event) {
    || e.MakeDir?
    || e.Guider?
    || (e.Device? && e.cmd.SetNumber?)
    || (e.Device? && e.cmd.SetText? && e.cmd.device == Camera && e.cmd.property == "CCD_SAVE")
  }

  /** An effect outside that vocabulary: a switch, a slew, a viewer launch or another text. */
  function StrayOf(e: Event): Option<Event> {
    if e.IsEffect() && !ImagingCommand(e) then Some(e) else None
  }

  function Strays(t: seq<Event>): seq<Event> {
    Pick(t, StrayOf)
  }

  /** Every effect of the trace is an imaging command. */
  predicate OnlyImaging(t: seq<Event>) {
    forall i :: 0 <= i < |t| && t[i].IsEffect() ==> ImagingCommand(t[i])
  }

  /** A trace has no stray effect exactly when all its effects are imaging commands. */
  lemma {:induction false} StraysEmpty(t: seq<Event>)
    ensures Strays(t) == [] <==> OnlyImaging(t)
    decreases |t|
  {
    if |t| > 0 {
      StraysEmpty(t[1..]);
      assert Strays(t) == One(StrayOf(t[0])) + Strays(t[1..]);
      if OnlyImaging(t) {
        assert OnlyImaging(t[1..]) by {
          forall i | 0 <= i < |t[1..]| && t[1..][i].IsEffect()
            ensures ImagingCommand(t[1..][i])
          {
            assert t[1..][i] == t[i + 1];
          }
        }
      } else if OnlyImaging(t[1..]) {
        assert !(t[0].IsEffect() ==> ImagingCommand(t[0])) by {
          forall i | 1 <= i < |t| && t[i].IsEffect()
            ensures ImagingCommand(t[i])
          {
            assert t[i] == t[1..][i - 1];
          }
        }
      }
    }
  }

  /** The events of one capture up to and including the exposure command. */
  function Expose(exposure: real, slot: nat): seq<Event> {
    [ Device(SetNumber(FilterWheel, "FILTER_SLOT", "FILTER_SLOT_VALUE", slot as real)),
      Sleep(2.0),
      Device(SetNumber(Camera, "CCD_EXPOSURE", "CCD_EXPOSURE_VALUE", exposure)) ]
  }

  /** The events of one capture after the exposure command: wait, save, log. */
  function Save(exposure: real, path: string): seq<Event> {
    [ Sleep(exposure + 2.0),
      Device(SetText(Camera, "CCD_SAVE", "CCD_SAVE_PATH", path)),
      Log(Info, Captured(path)) ]
  }

  /** `capture_image`. The filter lookup is a dictionary access that raises on
      an unknown name; `time.sleep` raises on a negative length. */
  function Capture(exposure: real, filter: string, directory: string, index: nat, stamp: string): Run {
    if filter !in Filters then Run([], Raised(KeyError(filter)))
    else
      var start := Expose(exposure, Filters[filter]);
      if exposure + 2.0 < 0.0 then Run(start, Raised(NegativeSleep(exposure + 2.0)))
      else Run(start + Save(exposure, FrameName(directory, filter, stamp, index)), Returned)
  }

  /** The capture must both find the filter and wait a non-negative time. */
  predicate CaptureSucceeds(exposure: real, filter: string) {
    filter in Filters && exposure + 2.0 >= 0.0
  }

  lemma ExposeProjections(exposure: real, slot: nat)
    ensures Milestones(Expose(exposure, slot)) == []
    ensures Checkpoints(Expose(exposure, slot)) == []
    ensures Writes(Expose(exposure, slot))
         == [Write(FilterWheel, "FILTER_SLOT", slot as real), Write(Camera, "CCD_EXPOSURE", exposure)]
  {
    var t := Expose(exposure, slot);
    Pick3(t[0], t[1], t[2], MilestoneOf);
    Pick3(t[0], t[1], t[2], CheckpointOf);
    Pick3(t[0], t[1], t[2], WriteOf);
  }

  lemma SaveProjections(exposure: real, path: string)
    ensures Milestones(Save(exposure, path)) == [Saved(path)]
    ensures Checkpoints(Save(exposure, path)) == []
    ensures Writes(Save(exposure, path)) == []
  {
    var t := Save(exposure, path);
    Pick3(t[0], t[1], t[2], MilestoneOf);
    Pick3(t[0], t[1], t[2], CheckpointOf);
    Pick3(t[0], t[1], t[2], WriteOf);
  }

  /** One capture selects the filter's slot, settles, exposes, waits the
      exposure plus two seconds and saves the frame. An unknown filter
      raises before any command; a negative wait raises once the exposure
      has been commanded. */
  lemma CaptureSteps(exposure: real, filter: string, directory: string, index: nat, stamp: string)
    ensures var r := Capture(exposure, filter, directory, index, stamp);
      && (filter !in Filters ==> r == Run([], Raised(KeyError(filter))))
      && (filter in Filters ==>
            && 3 <= |r.trace|
            && r.trace[0] == Device(SetNumber(FilterWheel, "FILTER_SLOT", "FILTER_SLOT_VALUE", Filters[filter] as real))
            && r.trace[1] == Sleep(2.0)
            && r.trace[2] == Device(SetNumber(Camera, "CCD_EXPOSURE", "CCD_EXPOSURE_VALUE", exposure)))
      && (filter in Filters && exposure + 2.0 < 0.0 ==>
            r.status == Raised(NegativeSleep(exposure + 2.0)) && |r.trace| == 3)
      && (CaptureSucceeds(exposure, filter) ==>
            && r.status == Returned
            && |r.trace| == 6
            && r.trace[3] == Sleep(exposure + 2.0)
            && r.trace[4] == Device(SetText(Camera, "CCD_SAVE", "CCD_SAVE_PATH", FrameName(directory, filter, stamp, index)))
            && r.trace[5] == Log(Info, Captured(FrameName(directory, filter, stamp, index))))
  {
  }

  /** A capture returns exactly when it can succeed, and then it has saved
      one frame under its frame name; a failed capture saves nothing. */
  lemma CaptureMilestone(exposure: real, filter: string, directory: string, index: nat, stamp: string)
    ensures var r := Capture(exposure, filter, directory, index, stamp);
      && (r.status.Returned? <==> CaptureSucceeds(exposure, filter))
      && Milestones(r.trace) == if CaptureSucceeds(exposure, filter) then [Saved(FrameName(directory, filter, stamp, index))] else []
  {
    if filter in Filters {
      var start := Expose(exposure, Filters[filter]);
      ExposeProjections(exposure, Filters[filter]);
      if exposure + 2.0 >= 0.0 {
        var path := FrameName(directory, filter, stamp, index);
        SaveProjections(exposure, path);
        MilestonesAppend(start, Save(exposure, path));
      }
    }
  }

  /** The events of a capture are its exposure prefix, then the save if it returned. */
  lemma CaptureShape(exposure: real, filter: string, directory: string, index: nat, stamp: string)
    ensures var r := Capture(exposure, filter, directory, index, stamp);
      filter in Filters ==>
        r.trace == Expose(exposure, Filters[filter])
                   + (if r.status.Returned? then Save(exposure, FrameName(directory, filter, stamp, index)) else [])
  {
  }

  /** A capture, whatever its outcome, never prompts, never talks to the
      guider and never creates a directory. */
  lemma CaptureNoGuiding(exposure: real, filter: string, directory: string, index: nat, stamp: string)
    ensures var r := Capture(exposure, filter, directory, index, stamp);
      Checkpoints(r.trace) == []
  {
    var r := Capture(exposure, filter, directory, index, stamp);
    if filter in Filters {
      CaptureShape(exposure, filter, directory, index, stamp);
      var path := FrameName(directory, filter, stamp, index);
      ExposeProjections(exposure, Filters[filter]);
      SaveProjections(exposure, path);
      PickAppend(Expose(exposure, Filters[filter]), if r.status.Returned? then Save(exposure, path) else [], CheckpointOf);
    }
  }

  /** A capture, whatever its outcome, never drives the mount's motion axes. */
  lemma CaptureLeavesMount(exposure: real, filter: string, directory: string, index: nat, stamp: string)
    ensures var r := Capture(exposure, filter, directory, index, stamp);
      && LastWrite(r.trace, Mount, MotionNS) == None
      && LastWrite(r.trace, Mount, MotionWE) == None
  {
    var r := Capture(exposure, filter, directory, index, stamp);
    if filter in Filters {
      CaptureShape(exposure, filter, directory, index, stamp);
      var path := FrameName(directory, filter, stamp, index);
      var start := Expose(exposure, Filters[filter]);
      ExposeProjections(exposure, Filters[filter]);
      SaveProjections(exposure, path);
      PickAppend(start, if r.status.Returned? then Save(exposure, path) else [], WriteOf);
      LatestNone(Writes(start), Mount, MotionNS);
      LatestNone(Writes(start), Mount, MotionWE);
    }
  }

  /** The numeric writes of one successful capture: the filter's slot, then the exposure length. */
  function ExposureWrites(exposure: real, filter: string): seq<Write>
    requires filter in Filters
  {
    [Write(FilterWheel, "FILTER_SLOT", Filters[filter] as real), Write(Camera, "CCD_EXPOSURE", exposure)]
  }

  /** The waits of one successful capture: the wheel's settle, then the exposure plus readout. */
  function CaptureWaits(exposure: real): seq<real> {
    [2.0, exposure + 2.0]
  }

  /** A successful capture sets the wheel to the filter's slot from the
      table and the exposure to the requested length, and waits 2 s for the
      wheel, then the exposure plus 2 s; the frame index and clock reading
      change none of this. */
  lemma CaptureCommands(exposure: real, filter: string, directory: string, index: nat, stamp: string)
    requires CaptureSucceeds(exposure, filter)
    ensures Writes(Capture(exposure, filter, directory, index, stamp).trace) == ExposureWrites(exposure, filter)
    ensures Waits(Capture(exposure, filter, directory, index, stamp).trace) == CaptureWaits(exposure)
  {
    var start := Expose(exposure, Filters[filter]);
    var rest := Save(exposure, FrameName(directory, filter, stamp, index));
    ExposeProjections(exposure, Filters[filter]);
    SaveProjections(exposure, FrameName(directory, filter, stamp, index));
    Pick3(start[0], start[1], start[2], WaitOf);
    Pick3(rest[0], rest[1], rest[2], WaitOf);
    PickAppend(start, rest, WaitOf);
    PickAppend(start, rest, WriteOf);
  }

  /** What a capture does outside the process: nothing on an unknown filter;
      the slot and exposure commands when the wait is negative; and those
      followed by the camera's save path when it succeeds. */
  lemma CaptureEffects(exposure: real, filter: string, directory: string, index: nat, stamp: string)
    ensures var r := Capture(exposure, filter, directory, index, stamp);
      && (filter !in Filters ==> Effects(r.trace) == [])
      && (filter in Filters ==>
            var slot := Device(SetNumber(FilterWheel, "FILTER_SLOT", "FILTER_SLOT_VALUE", Filters[filter] as real));
            var expose := Device(SetNumber(Camera, "CCD_EXPOSURE", "CCD_EXPOSURE_VALUE", exposure));
            var save := Device(SetText(Camera, "CCD_SAVE", "CCD_SAVE_PATH", FrameName(directory, filter, stamp, index)));
            Effects(r.trace) == if exposure + 2.0 < 0.0 then [slot, expose] else [slot, expose, save])
  {
    if filter in Filters {
      var start := Expose(exposure, Filters[filter]);
      var rest := Save(exposure, FrameName(directory, filter, stamp, index));
      Pick3(start[0], start[1], start[2], EffectOf);
      if exposure + 2.0 >= 0.0 {
        Pick3(rest[0], rest[1], rest[2], EffectOf);
        PickAppend(start, rest, EffectOf);
      }
    }
  }

  /** Whatever its outcome, a capture issues only imaging commands. */
  lemma CaptureOnlyImaging(exposure: real, filter: string, directory: string, index: nat, stamp: string)
    ensures Strays(Capture(exposure, filter, directory, index, stamp).trace) == []
  {
    if filter in Filters {
      var start := Expose(exposure, Filters[filter]);
      var rest := Save(exposure, FrameName(directory, filter, stamp, index));
      Pick3(start[0], start[1], start[2], StrayOf);
      if exposure + 2.0 >= 0.0 {
        Pick3(rest[0], rest[1], rest[2], StrayOf);
        PickAppend(start, rest, StrayOf);
      }
    }
  }

  /** `dither`: pulse north-south, then west-east, then stop both axes. */
  function Dither(): seq<Event> {
    [ Device(SetNumber(Mount, MotionNS, "TELESCOPE_MOTION_NS_VALUE", 1.0)),
      Sleep(1.0),
      Device(SetNumber(Mount, MotionWE, "TELESCOPE_MOTION_WE_VALUE", 1.0)),
      Sleep(1.0),
      Device(SetNumber(Mount, MotionNS, "TELESCOPE_MOTION_NS_VALUE", 0.0)),
      Device(SetNumber(Mount, MotionWE, "TELESCOPE_MOTION_WE_VALUE", 0.0)) ]
  }

  /** A dither is one milestone and holds no checkpoint. */
  lemma DitherIsOneMilestone()
    ensures Milestones(Dither()) == [Dithered]
    ensures Checkpoints(Dither()) == []
  {
    var t := Dither();
    Pick6(t[0], t[1], t[2], t[3], t[4], t[5], MilestoneOf);
    Pick6(t[0], t[1], t[2], t[3], t[4], t[5], CheckpointOf);
  }

  /** The numeric writes of a dither. */
  const DitherWrites: seq<Write> :=
    [ Write(Mount, MotionNS, 1.0), Write(Mount, MotionWE, 1.0), Write(Mount, MotionNS, 0.0), Write(Mount, MotionWE, 0.0) ]

  /** The waits of a dither: one second after each pulse. */
  const DitherWaits: seq<real> := [1.0, 1.0]

  /** A dither drives each axis to 1 and then back to 0, north-south first,
      so both axes end stopped. */
  lemma DitherStopsMount()
    ensures Writes(Dither()) == DitherWrites
    ensures LastWrite(Dither(), Mount, MotionNS) == Some(0.0)
    ensures LastWrite(Dither(), Mount, MotionWE) == Some(0.0)
  {
    var t := Dither();
    Pick6(t[0], t[1], t[2], t[3], t[4], t[5], WriteOf);
  }

  /** A dither acts on the mount's two motion axes only, four writes in
      source order, and issues only imaging commands. */
  lemma DitherEffects()
    ensures Effects(Dither())
         == [ Device(SetNumber(Mount, MotionNS, "TELESCOPE_MOTION_NS_VALUE", 1.0)),
              Device(SetNumber(Mount, MotionWE, "TELESCOPE_MOTION_WE_VALUE", 1.0)),
              Device(SetNumber(Mount, MotionNS, "TELESCOPE_MOTION_NS_VALUE", 0.0)),
              Device(SetNumber(Mount, MotionWE, "TELESCOPE_MOTION_WE_VALUE", 0.0)) ]
    ensures Strays(Dither()) == []
  {
    var t := Dither();
    Pick6(t[0], t[1], t[2], t[3], t[4], t[5], EffectOf);
    Pick6(t[0], t[1], t[2], t[3], t[4], t[5], StrayOf);
  }

  /** A dither waits one second after each of its two pulses, and nowhere else. */
  lemma DitherPauses()
    ensures Waits(Dither()) == DitherWaits
    ensures |Dither()| == 6
    ensures Dither()[0] == Device(SetNumber(Mount, MotionNS, "TELESCOPE_MOTION_NS_VALUE", 1.0)) && Dither()[1] == Sleep(1.0)
    ensures Dither()[2] == Device(SetNumber(Mount, MotionWE, "TELESCOPE_MOTION_WE_VALUE", 1.0)) && Dither()[3] == Sleep(1.0)
  {
    var t := Dither();
    Pick6(t[0], t[1], t[2], t[3], t[4], t[5], WaitOf);
  }

  /** `focus`: run the focuser motor, hold two seconds, stop it. */
  function Focus(): seq<Event> {
    [ Device(SetNumber(Focuser, FocusMotion, "FOCUS_MOTION_VALUE", 1.0)),
      Sleep(2.0),
      Device(SetNumber(Focuser, FocusMotion, "FOCUS_MOTION_VALUE", 0.0)),
      Log(Info, FocusComplete) ]
  }

  /** A focus nudge is the motor switched on, held for two seconds and
      then switched off, and nothing else. */
  lemma FocusStopsMotor()
    ensures Writes(Focus()) == [Write(Focuser, FocusMotion, 1.0), Write(Focuser, FocusMotion, 0.0)]
    ensures LastWrite(Focus(), Focuser, FocusMotion) == Some(0.0)
    ensures |Effects(Focus())| == 2
    ensures Checkpoints(Focus()) == []
    ensures |Focus()| == 4 && Focus()[1] == Sleep(2.0) && Waits(Focus()) == [2.0]
  {
    var t := Focus();
    Pick4(t[0], t[1], t[2], t[3], WaitOf);
    Pick4(t[0], t[1], t[2], t[3], WriteOf);
    Pick4(t[0], t[1], t[2], t[3], EffectOf);
    Pick4(t[0], t[1], t[2], t[3], CheckpointOf);
  }

  /** Sky position in degrees, as handed to the mount. */
  datatype Coords = Coords(ra: real, dec: real)

  /** `slew_to_target`: one absolute coordinate write to the mount, then a fixed settle. */
  function SlewTo(c: Coords): seq<Event> {
    [ Device(SetCoords(Mount, "EQUATORIAL_EOD_COORD", c.ra, c.dec)),
      Sleep(10.0),
      Log(Info, Slewed(c.ra, c.dec)) ]
  }

  /** A slew is one absolute coordinate write of exactly the given position,
      followed by a ten-second settle; it prompts, guides and creates
      nothing, and never drives the motion axes. */
  lemma SlewMovesOnce(c: Coords)
    ensures Effects(SlewTo(c)) == [Device(SetCoords(Mount, "EQUATORIAL_EOD_COORD", c.ra, c.dec))]
    ensures Waits(SlewTo(c)) == [10.0]
    ensures |SlewTo(c)| == 3 && SlewTo(c)[1] == Sleep(10.0)
    ensures SlewTo(c)[0] == Device(SetCoords(Mount, "EQUATORIAL_EOD_COORD", c.ra, c.dec))
    ensures SlewTo(c)[2] == Log(Info, Slewed(c.ra, c.dec))
    ensures Checkpoints(SlewTo(c)) == []
    ensures Writes(SlewTo(c)) == []
  {
    var t := SlewTo(c);
    Pick3(t[0], t[1], t[2], EffectOf);
    Pick3(t[0], t[1], t[2], WaitOf);
    Pick3(t[0], t[1], t[2], CheckpointOf);
    Pick3(t[0], t[1], t[2], WriteOf);
  }

  /** `show_image`: hand `{directory}/{image_name}.fits` to the viewer. */
  function ShowImage(directory: string, imageName: string): seq<Event> {
    [Viewer(directory + "/" + imageName + ".fits")]
  }

  /** The viewer is launched once and on nothing but the image's file: the
      path is the directory, a slash, the image name and the `.fits`
      extension, so both the directory and the name can be read back. */
  lemma ViewerOpensImage(directory: string, imageName: string)
    ensures |ShowImage(directory, imageName)| == 1 && ShowImage(directory, imageName)[0].Viewer?
    ensures var path := ShowImage(directory, imageName)[0].path;
      && |path| == |directory| + |imageName| + 6
      && path[..|directory|] == directory
      && path[|directory|] == '/'
      && path[|directory| + 1..|path| - 5] == imageName
      && path[|path| - 5..] == ".fits"
  {
    var path := directory + "/" + imageName + ".fits";
    assert path == directory + ("/" + imageName + ".fits");
    assert path[|directory| + 1..|path| - 5] == imageName;
  }
}

=== FILE: format.dfy ===
/** The text handling the controller relies on: Python's `{n:04d}` format
    of the frame index and `str.lower` applied to the operator's reply. */
module Format {

  predicate IsDigit(c: char) {
    '0' <= c <= '9'
  }

  predicate AllDigits(s: string) {
    forall i :: 0 <= i < |s| ==> IsDigit(s[i])
  }

  function DigitChar(d: nat): (c: char)
    requires d < 10
    ensures IsDigit(c)
  {
    ('0' as int + d) as char
  }

  function DigitValue(c: char): nat
    requires IsDigit(c)
  {
    c as int - '0' as int
  }

  /** Reads a string of decimal digits back as a number (most significant first). */
  function Parse(s: string): nat
    requires AllDigits(s)
    decreases |s|
  {
    if |s| == 0 then 0 else Parse(s[..|s| - 1]) * 10 + DigitValue(s[|s| - 1])
  }

  function Pow10(k: nat): nat {
    if k == 0 then 1 else 10 * Pow10(k - 1)
  }

  /** The shortest decimal spelling of `n`, as Python's `str(n)`. */
  function Decimal(n: nat): string
    decreases n
  {
    if n < 10 then [DigitChar(n)] else Decimal(n / 10) + [DigitChar(n % 10)]
  }

  /** `Decimal(n)` is a non-empty digit string without a superfluous leading
      zero that parses back to `n`. */
  lemma {:induction false} DecimalSpells(n: nat)
    ensures 1 <= |Decimal(n)|
    ensures AllDigits(Decimal(n))
    ensures Parse(Decimal(n)) == n
    ensures |Decimal(n)| > 1 ==> Decimal(n)[0] != '0'
    decreases n
  {
    if n >= 10 {
      DecimalSpells(n / 10);
      var s := Decimal(n);
      assert s[..|s| - 1] == Decimal(n / 10);
    }
  }

  /** `Decimal(n)` has at most `k` digits exactly when `n` is below `10^k`. */
  lemma {:induction false} DecimalLength(n: nat, k: nat)
    requires 1 <= k
    ensures |Decimal(n)| <= k <==> n < Pow10(k)
    decreases n
  {
    if n >= 10 {
      assert |Decimal(n)| == |Decimal(n / 10)| + 1;
      if k == 1 {
        assert Pow10(1) == 10;
      } else {
        DecimalLength(n / 10, k - 1);
      }
    } else {
      PowAtLeastTen(k);
    }
  }

  lemma {:induction false} PowAtLeastTen(k: nat)
    requires 1 <= k
    ensures Pow10(k) >= 10
  {
    if k > 1 {
      PowAtLeastTen(k - 1);
    }
  }

  function Zeros(k: nat): (s: string)
    ensures |s| == k
    ensures forall i :: 0 <= i < k ==> s[i] == '0'
  {
    seq(k, _ => '0')
  }

  /** Leading zeros do not change the value a digit string parses to. */
  lemma {:induction false} ParseLeadingZeros(k: nat, s: string)
    requires AllDigits(s)
    ensures AllDigits(Zeros(k) + s)
    ensures Parse(Zeros(k) + s) == Parse(s)
    decreases |s|
  {
    if |s| == 0 {
      assert Zeros(k) + s == Zeros(k);
      ParseZeros(k);
    } else {
      var z := Zeros(k) + s;
      assert z[..|z| - 1] == Zeros(k) + s[..|s| - 1];
      ParseLeadingZeros(k, s[..|s| - 1]);
    }
  }

  lemma {:induction false} ParseZeros(k: nat)
    ensures Parse(Zeros(k)) == 0
  {
    if k > 0 {
      assert Zeros(k)[..k - 1] == Zeros(k - 1);
      ParseZeros(k - 1);
    }
  }

  /** Python's `f"{n:04d}"` for a non-negative `n`. */
  function Pad4(n: nat): string {
    var d := Decimal(n);
    if |d| < 4 then Zeros(4 - |d|) + d else d
  }

  /** The padded index is all digits and parses back to `n`; it is exactly
      four characters for `n` up to 9999, and wider only past that, where it
      is the plain spelling with no leading zero. */
  lemma Pad4Spells(n: nat)
    ensures AllDigits(Pad4(n))
    ensures Parse(Pad4(n)) == n
    ensures 4 <= |Pad4(n)|
    ensures |Pad4(n)| == 4 <==> n < 10000
    ensures |Pad4(n)| > 4 ==> Pad4(n) == Decimal(n) && Pad4(n)[0] != '0'
  {
    var d := Decimal(n);
    DecimalSpells(n);
    DecimalLength(n, 4);
    assert Pow10(4) == 10000;
    if |d| < 4 {
      ParseLeadingZeros(4 - |d|, d);
    }
  }

  /** Distinct indices never share a padded spelling. */
  lemma Pad4Injective(m: nat, n: nat)
    ensures Pad4(m) == Pad4(n) ==> m == n
  {
    Pad4Spells(m);
    Pad4Spells(n);
  }

  function LowerChar(c: char): char {
    if 'A' <= c <= 'Z' then (c as int + 32) as char else c
  }

  /** `str.lower` restricted to ASCII letters; every other character is kept. */
  function Lower(s: string): (r: string)
    ensures |r| == |s|
    ensures forall i :: 0 <= i < |s| ==> r[i] == LowerChar(s[i])
  {
    seq(|s|, i requires 0 <= i < |s| => LowerChar(s[i]))
  }

  /** Lower-casing yields "y" for exactly the two replies "y" and "Y". */
  lemma LowerIsY(s: string)
    ensures Lower(s) == "y" <==> s == "y" || s == "Y"
  {
    if Lower(s) == "y" {
      assert |s| == 1;
      assert LowerChar(s[0]) == 'y';
      assert s == [s[0]];
    }
    if s == "Y" {
      assert Lower(s)[0] == 'y';
    }
  }
}

=== FILE: scenarios.dfy ===
/** Worked instances of the general results: a three-frame session on a
    well-placed target and a session on a name the catalogue does not know. */
module Scenarios {
  import opened Trace
  import opened Format
  import opened Equipment
  import opened Sequencer
  import opened Dispatch

  /** `{n:04d}` for the first frame indices. */
  lemma FirstPads()
    ensures Pad4(1) == "0001" && Pad4(2) == "0002" && Pad4(3) == "0003"
  {
    assert Zeros(3) == "000";
  }

  function M42Env(c: Coords, clock: nat -> string, reply: string, replies: GuideOp -> string): Env {
    Env(Some(c), 45.0, reply, clock, replies)
  }

  /** `sequence` on M42 in /images with filter R, three exposures of 10 s. */
  const M42Args: Args := Args("", "", "M42", "/images", "R", 3, 10.0, "", "")

  /** With M42 at 45 degrees the session returns normally without a prompt. */
  lemma M42Returns(c: Coords, clock: nat -> string, reply: string, replies: GuideOp -> string)
    ensures Observatory("sequence", M42Args, M42Env(c, clock, reply, replies)).status == Returned
    ensures Asks(Observatory("sequence", M42Args, M42Env(c, clock, reply, replies)).trace) == []
  {
    var env := M42Env(c, clock, reply, replies);
    ObservatoryRoutesTargets("sequence", M42Args, env);
    SequenceCompletes(PlanOf(M42Args), env);
    SequencePrompts(PlanOf(M42Args), env);
  }

  /** The session creates its directory, enables multi-star mode, starts
      guiding and stops it once. */
  lemma M42Session(c: Coords, clock: nat -> string, reply: string, replies: GuideOp -> string)
    ensures Checkpoints(Observatory("sequence", M42Args, M42Env(c, clock, reply, replies)).trace)
         == [ MakeDir(SessionDir("/images", "M42", clock(0))), Guider(EnableMultiStar), Guider(StartGuiding),
              Guider(StopCapture) ]
  {
    var env := M42Env(c, clock, reply, replies);
    ObservatoryRoutesTargets("sequence", M42Args, env);
    SequenceCompletes(PlanOf(M42Args), env);
  }

  /** Three alternating passes are frame 1, a dither, frame 2, a dither, frame 3. */
  lemma ThreeFrames(ms: seq<Milestone>, directory: string, filter: string, clock: nat -> string)
    requires Alternates(ms, directory, filter, clock, 3)
    ensures ms == [ Saved(FrameName(directory, filter, clock(1), 1)), Dithered,
                    Saved(FrameName(directory, filter, clock(2), 2)), Dithered,
                    Saved(FrameName(directory, filter, clock(3), 3)) ]
  {
    assert ms[0].Saved? && ms[2].Saved? && ms[4].Saved?;
    assert ms[1].Dithered? && ms[3].Dithered?;
  }

  /** How an R frame with one of the first indices is spelled. */
  lemma RFrameSpelling(directory: string, stamp: string, i: nat, digits: string)
    requires Pad4(i) == digits
    ensures FrameName(directory, "R", stamp, i) == directory + "/R_" + stamp + "_" + digits + ".fits"
  {
    assert directory + "/" + "R" + "_" == directory + "/R_";
  }

  /** The same session saves R_<time>_0001.fits to _0003.fits in its
      directory, with a dither between each two. */
  lemma M42Frames(c: Coords, clock: nat -> string, reply: string, replies: GuideOp -> string)
    ensures var directory := SessionDir("/images", "M42", clock(0));
      Milestones(Observatory("sequence", M42Args, M42Env(c, clock, reply, replies)).trace)
      == [ Saved(directory + "/R_" + clock(1) + "_" + "0001" + ".fits"), Dithered,
           Saved(directory + "/R_" + clock(2) + "_" + "0002" + ".fits"), Dithered,
           Saved(directory + "/R_" + clock(3) + "_" + "0003" + ".fits") ]
  {
    var env := M42Env(c, clock, reply, replies);
    var directory := SessionDir("/images", "M42", clock(0));
    ObservatoryRoutesTargets("sequence", M42Args, env);
    SequenceAlternates(PlanOf(M42Args), env);
    ThreeFrames(Milestones(Observatory("sequence", M42Args, env).trace), directory, "R", clock);
    FirstPads();
    RFrameSpelling(directory, clock(1), 1, "0001");
    RFrameSpelling(directory, clock(2), 2, "0002");
    RFrameSpelling(directory, clock(3), 3, "0003");
  }

  /** `target` on a name the catalogue does not know logs two errors and
      does nothing else. */
  lemma UnknownTargetSlew(name: string, altitude: real, reply: string, clock: nat -> string, replies: GuideOp -> string)
    ensures var env := Env(None, altitude, reply, clock, replies);
            var args := Args("", name, "", "", "", 0, 0.0, "", "");
      Observatory("target", args, env)
      == Run([Log(Error, ObjectNotFound(name)), Log(Error, TargetNotFound)], Returned)
  {
    TargetSlewsOnlyWhenAdmitted(name, Env(None, altitude, reply, clock, replies));
  }
}

=== FILE: sequencer.dfy ===
/** The two handlers with decision logic: the slew to a named target and the
    guided imaging sequence. Both start with the same resolve-and-gate
    prefix: look the target up, and below 20 degrees of altitude ask the
    operator whether to go on. Everything the handlers learn from outside
    (the catalogue, the altitude transform, the operator, the clock and the
    guiding daemon's replies) is an input. */
module Sequencer {
  import opened Trace
  import opened Format
  import opened Equipment

  /** What a handler learns from outside while it runs. */
  datatype Env = Env(
    coords: Option<Coords>,           // the catalogue lookup of the target; None when unknown
    altitude: real,                   // the target's current altitude, in degrees
    reply: string,                    // the operator's answer if prompted
    clock: nat -> string,             // clock(0) names the session directory, clock(i) frame i
    guideStatus: GuideOp -> string)   // the guiding daemon's status reply to each request

  /** Below this altitude the operator must confirm. */
  const MinAltitude: real := 20.0

  datatype Verdict = Verdict(asked: seq<Event>, proceed: bool)

  /** `check_continue_sequence`: at or above the threshold go on without
      asking; below it, prompt and go on exactly on a "y" or "Y". */
  function Gate(altitude: real, reply: string): (v: Verdict)
    ensures altitude >= MinAltitude ==> v == Verdict([], true)
    ensures altitude < MinAltitude ==> v.asked == [Ask(altitude)]
    ensures altitude < MinAltitude ==> (v.proceed <==> reply == "y" || reply == "Y")
  {
    if altitude < MinAltitude then
      LowerIsY(reply);
      Verdict([Ask(altitude)], Lower(reply) == "y")
    else
      Verdict([], true)
  }

  /** Whether a handler gets past the resolve-and-gate prefix: the target is
      known, and it is high enough or the operator agreed. */
  predicate Proceeds(env: Env) {
    env.coords.Some? && (env.altitude >= MinAltitude || env.reply == "y" || env.reply == "Y")
  }

  /** The prompt a handler shows for `env`, if any. */
  function Prompt(env: Env): seq<Event> {
    if env.coords.Some? && env.altitude < MinAltitude then [Ask(env.altitude)] else []
  }

  datatype Admission =
    | Unresolved(trace: seq<Event>)
    | Declined(trace: seq<Event>)
    | Admitted(target: Coords, trace: seq<Event>)

  /** The common prefix of `observatory_target` and `observatory_sequence`:
      resolve, then consult the altitude gate only for a known target. */
  function Admit(name: string, env: Env): (a: Admission)
    ensures a.Unresolved? <==> env.coords.None?
    ensures a.Admitted? <==> Proceeds(env)
    ensures a.Admitted? ==> a.target == env.coords.value
    ensures a.Unresolved? ==> a.trace == [Log(Error, ObjectNotFound(name))]
    ensures !a.Unresolved? ==> a.trace == Prompt(env)
  {
    match env.coords
    case None => Unresolved([Log(Error, ObjectNotFound(name))])
    case Some(c) =>
      var v := Gate(env.altitude, env.reply);
      if v.proceed then Admitted(c, v.asked) else Declined(v.asked)
  }

  /** `observatory_target`. */
  function Target(name: string, env: Env): Run {
    match Admit(name, env)
    case Unresolved(t) => Run(t + [Log(Error, TargetNotFound)], Returned)
    case Declined(t) => Run(t + [Log(Info, SlewAborted)], Returned)
    case Admitted(c, t) => Run(t + SlewTo(c), Returned)
  }

  /** The slew command moves the mount exactly once, to the resolved
      coordinates, when the target resolves and the gate lets it through;
      otherwise it touches no device and only logs. */
  lemma TargetSlewsOnlyWhenAdmitted(name: string, env: Env)
    ensures var r := Target(name, env);
      && r.status == Returned
      && (Proceeds(env) ==>
            Effects(r.trace) == [Device(SetCoords(Mount, "EQUATORIAL_EOD_COORD", env.coords.value.ra, env.coords.value.dec))])
      && (!Proceeds(env) ==> NoEffects(r.trace))
      && (Proceeds(env) ==> r.trace == Prompt(env) + SlewTo(env.coords.value))
      && (env.coords.Some? && !Proceeds(env) ==> r.trace == [Ask(env.altitude), Log(Info, SlewAborted)])
      && (env.coords.None? ==> r.trace == [Log(Error, ObjectNotFound(name)), Log(Error, TargetNotFound)])
  {
    var r := Target(name, env);
    match Admit(name, env)
    case Unresolved(t) =>
    case Declined(t) =>
      assert r.trace == Prompt(env) + [Log(Info, SlewAborted)];
    case Admitted(c, t) =>
      var s := SlewTo(c);
      Pick3(s[0], s[1], s[2], EffectOf);
      PickAppend(t, s, EffectOf);
      if |t| == 1 {
        Pick1(t[0], EffectOf);
      }
  }

  /** The slew command prompts the operator exactly when a known target is
      below the threshold, and never creates a directory or guides. */
  lemma TargetCheckpoints(name: string, env: Env)
    ensures Checkpoints(Target(name, env).trace) == Prompt(env)
  {
    var r := Target(name, env);
    var p := Prompt(env);
    if |p| == 1 {
      Pick1(p[0], CheckpointOf);
    }
    match Admit(name, env)
    case Unresolved(t) =>
      Pick2(t[0], Log(Error, TargetNotFound), CheckpointOf);
    case Declined(t) =>
      PickAppend(t, [Log(Info, SlewAborted)], CheckpointOf);
    case Admitted(c, t) =>
      var s := SlewTo(c);
      Pick3(s[0], s[1], s[2], CheckpointOf);
      PickAppend(t, s, CheckpointOf);
  }

  /** The arguments of `observatory_sequence`. */
  datatype Plan = Plan(target: string, baseDirectory: string, filter: string, count: int, exposure: real)

  /** `create_directory`: `{base_directory}/{target_name}_{timestamp}`. */
  function SessionDir(baseDirectory: string, target: string, stamp: string): string {
    baseDirectory + "/" + target + "_" + stamp
  }

  /** How many indices `range(count)` yields: none for a count at or below zero. */
  function Passes(count: int): nat {
    if count < 0 then 0 else count
  }

  /** Pass `i` (zero-based) of the capture loop: dither unless first, then capture frame `i + 1`. */
  function Pass(p: Plan, directory: string, clock: nat -> string, i: nat): Run {
    Run(if i != 0 then Dither() else [], Returned)
      .Then(Capture(p.exposure, p.filter, directory, i + 1, clock(i + 1)))
  }

  /** The first `k` passes of the capture loop, stopping at the first exception. */
  function Rounds(p: Plan, directory: string, clock: nat -> string, k: nat): Run
    decreases k
  {
    if k == 0 then Run([], Returned)
    else Rounds(p, directory, clock, k - 1).Then(Pass(p, directory, clock, k - 1))
  }

  /** `observatory_sequence`. The guiding daemon's replies are discarded. */
  function Sequence(p: Plan, env: Env): Run {
    match Admit(p.target, env)
    case Unresolved(t) => Run(t + [Log(Error, TargetNotFound)], Returned)
    case Declined(t) => Run(t + [Log(Info, SequenceAborted)], Returned)
    case Admitted(_, t) =>
      var directory := SessionDir(p.baseDirectory, p.target, env.clock(0));
      Run(t + [MakeDir(directory), Guider(EnableMultiStar), Guider(StartGuiding)], Returned)
        .Then(Rounds(p, directory, env.clock, Passes(p.count)))
        .Then(Run([Guider(StopCapture), Log(Info, SequenceComplete(directory))], Returned))
  }

  /** The milestones of `n` completed passes: frame 1, then a dither and the
      next frame for each of frames 2..n, each frame saved under its own
      index and the clock reading taken when it was saved. */
  predicate Alternates(ms: seq<Milestone>, directory: string, filter: string, clock: nat -> string, n: nat) {
    && Interleaved(ms, n)
    && forall j :: 0 <= j < |ms| && j % 2 == 0 ==>
         ms[j] == Saved(FrameName(directory, filter, clock(j / 2 + 1), j / 2 + 1))
  }

  /** The shape of `n` passes without the names: saves at even positions, dithers at odd ones. */
  predicate Interleaved(ms: seq<Milestone>, n: nat) {
    && |ms| == (if n == 0 then 0 else 2 * n - 1)
    && forall j :: 0 <= j < |ms| ==> (ms[j].Dithered? <==> j % 2 == 1)
  }

  /** How many frames a milestone list saves. */
  function Frames(ms: seq<Milestone>): nat
    decreases |ms|
  {
    if |ms| == 0 then 0 else Frames(ms[..|ms| - 1]) + (if ms[|ms| - 1].Saved? then 1 else 0)
  }

  /** How many dithers a milestone list holds. */
  function Dithers(ms: seq<Milestone>): nat
    decreases |ms|
  {
    if |ms| == 0 then 0 else Dithers(ms[..|ms| - 1]) + (if ms[|ms| - 1].Dithered? then 1 else 0)
  }

  /** `n` interleaved passes save exactly `n` frames and dither `n - 1` times (none for `n = 0`). */
  lemma {:induction false} InterleavedCounts(ms: seq<Milestone>, n: nat)
    requires Interleaved(ms, n)
    ensures Frames(ms) == n
    ensures Dithers(ms) == if n == 0 then 0 else n - 1
    decreases n
  {
    if n > 1 {
      var last := |ms| - 1;
      var shorter := ms[..last - 1];
      assert Interleaved(shorter, n - 1) by {
        forall j | 0 <= j < |shorter| ensures (shorter[j].Dithered? <==> j % 2 == 1) {
          assert shorter[j] == ms[j];
        }
      }
      InterleavedCounts(shorter, n - 1);
      assert last % 2 == 0 && (last - 1) % 2 == 1;
      assert ms[..last][..last - 1] == shorter;
    } else if n == 1 {
      assert ms[..0] == [];
    }
  }

  /** In an alternation no dither comes first or last, and every dither sits
      between the frames with consecutive indices k and k + 1. */
  lemma DithersBetweenFrames(ms: seq<Milestone>, directory: string, filter: string, clock: nat -> string, n: nat)
    requires Alternates(ms, directory, filter, clock, n)
    ensures 0 < |ms| ==> ms[0].Saved? && ms[|ms| - 1].Saved?
    ensures forall j :: 0 <= j < |ms| && ms[j] == Dithered ==>
              && 0 < j < |ms| - 1
              && ms[j - 1] == Saved(FrameName(directory, filter, clock((j + 1) / 2), (j + 1) / 2))
              && ms[j + 1] == Saved(FrameName(directory, filter, clock((j + 1) / 2 + 1), (j + 1) / 2 + 1))
  {
    forall j | 0 <= j < |ms| && ms[j] == Dithered
      ensures 0 < j < |ms| - 1
      ensures ms[j - 1] == Saved(FrameName(directory, filter, clock((j + 1) / 2), (j + 1) / 2))
      ensures ms[j + 1] == Saved(FrameName(directory, filter, clock((j + 1) / 2 + 1), (j + 1) / 2 + 1))
    {
      assert j % 2 == 1 && (j - 1) % 2 == 0 && (j + 1) % 2 == 0;
      assert (j - 1) / 2 + 1 == (j + 1) / 2;
    }
  }

  /** What pass `i` is meant to contribute: a dither unless first, then frame `i + 1`. */
  function PassShape(directory: string, filter: string, clock: nat -> string, i: nat): seq<Milestone> {
    (if i != 0 then [Dithered] else []) + [Saved(FrameName(directory, filter, clock(i + 1), i + 1))]
  }

  /** A successful pass is a dither (except the first) followed by one saved frame. */
  lemma PassMilestones(p: Plan, directory: string, clock: nat -> string, i: nat)
    requires CaptureSucceeds(p.exposure, p.filter)
    ensures Pass(p, directory, clock, i).status == Returned
    ensures Milestones(Pass(p, directory, clock, i).trace) == PassShape(directory, p.filter, clock, i)
  {
    var pulse := if i != 0 then Dither() else [];
    var cap := Capture(p.exposure, p.filter, directory, i + 1, clock(i + 1));
    CaptureMilestone(p.exposure, p.filter, directory, i + 1, clock(i + 1));
    DitherIsOneMilestone();
    MilestonesAppend(pulse, cap.trace);
  }

  /** Appending pass `k - 1`'s milestones to an alternation of `k - 1` passes gives one of `k`. */
  lemma AlternatesExtend(ms: seq<Milestone>, directory: string, filter: string, clock: nat -> string, k: nat)
    requires 1 <= k
    requires Alternates(ms, directory, filter, clock, k - 1)
    ensures Alternates(ms + PassShape(directory, filter, clock, k - 1), directory, filter, clock, k)
  {
    var next := ms + PassShape(directory, filter, clock, k - 1);
    forall j | 0 <= j < |next|
      ensures next[j].Dithered? <==> j % 2 == 1
      ensures j % 2 == 0 ==> next[j] == Saved(FrameName(directory, filter, clock(j / 2 + 1), j / 2 + 1))
    {
      if j < |ms| {
        assert next[j] == ms[j];
      } else if j == |next| - 1 {
        assert j == 2 * k - 2 && j / 2 + 1 == k;
      } else {
        assert j == 2 * k - 3 && j % 2 == 1;
      }
    }
  }

  /** When every capture succeeds, `k` passes return normally and their
      milestones alternate frame, dither, frame, ... with frames 1..k. */
  lemma {:induction false} RoundsAlternate(p: Plan, directory: string, clock: nat -> string, k: nat)
    requires k == 0 || CaptureSucceeds(p.exposure, p.filter)
    ensures Rounds(p, directory, clock, k).status == Returned
    ensures Alternates(Milestones(Rounds(p, directory, clock, k).trace), directory, p.filter, clock, k)
    decreases k
  {
    if k > 0 {
      RoundsAlternate(p, directory, clock, k - 1);
      var prev := Rounds(p, directory, clock, k - 1).trace;
      var pass := Pass(p, directory, clock, k - 1);
      PassMilestones(p, directory, clock, k - 1);
      assert Rounds(p, directory, clock, k).trace == prev + pass.trace;
      MilestonesAppend(prev, pass.trace);
      AlternatesExtend(Milestones(prev), directory, p.filter, clock, k);
    }
  }

  /** Whatever happens, the passes never prompt, never create a directory
      and never talk to the guider. */
  lemma {:induction false} RoundsHoldNoCheckpoint(p: Plan, directory: string, clock: nat -> string, k: nat)
    ensures Checkpoints(Rounds(p, directory, clock, k).trace) == []
    decreases k
  {
    if k > 0 {
      RoundsHoldNoCheckpoint(p, directory, clock, k - 1);
      var prev := Rounds(p, directory, clock, k - 1);
      if prev.status.Returned? {
        var pulse := if k - 1 != 0 then Dither() else [];
        var cap := Capture(p.exposure, p.filter, directory, k, clock(k));
        CaptureNoGuiding(p.exposure, p.filter, directory, k, clock(k));
        DitherIsOneMilestone();
        assert Rounds(p, directory, clock, k).trace == prev.trace + (pulse + cap.trace);
        PickAppend(prev.trace, pulse + cap.trace, CheckpointOf);
        PickAppend(pulse, cap.trace, CheckpointOf);
      }
    }
  }

  /** Whatever happens, the passes issue only imaging commands. */
  lemma {:induction false} RoundsOnlyImaging(p: Plan, directory: string, clock: nat -> string, k: nat)
    ensures Strays(Rounds(p, directory, clock, k).trace) == []
    decreases k
  {
    if k > 0 {
      RoundsOnlyImaging(p, directory, clock, k - 1);
      var prev := Rounds(p, directory, clock, k - 1);
      if prev.status.Returned? {
        var pulse := if k - 1 != 0 then Dither() else [];
        var cap := Capture(p.exposure, p.filter, directory, k, clock(k));
        CaptureOnlyImaging(p.exposure, p.filter, directory, k, clock(k));
        DitherEffects();
        assert Rounds(p, directory, clock, k).trace == prev.trace + (pulse + cap.trace);
        PickAppend(prev.trace, pulse + cap.trace, StrayOf);
        PickAppend(pulse, cap.trace, StrayOf);
      }
    }
  }

  /** Whatever happens, the passes leave both mount axes at rest: every
      dither ends by writing 0 to each axis and captures never touch them. */
  lemma {:induction false} RoundsLeaveMountAtRest(p: Plan, directory: string, clock: nat -> string, k: nat)
    ensures AtRest(Rounds(p, directory, clock, k).trace, Mount, MotionNS)
    ensures AtRest(Rounds(p, directory, clock, k).trace, Mount, MotionWE)
    decreases k
  {
    if k > 0 {
      RoundsLeaveMountAtRest(p, directory, clock, k - 1);
      var prev := Rounds(p, directory, clock, k - 1);
      if prev.status.Returned? {
        var pulse := if k - 1 != 0 then Dither() else [];
        var cap := Capture(p.exposure, p.filter, directory, k, clock(k));
        CaptureLeavesMount(p.exposure, p.filter, directory, k, clock(k));
        DitherStopsMount();
        assert Rounds(p, directory, clock, k).trace == prev.trace + (pulse + cap.trace);
        LastWriteAppend(prev.trace, pulse + cap.trace, Mount, MotionNS);
        LastWriteAppend(pulse, cap.trace, Mount, MotionNS);
        LastWriteAppend(prev.trace, pulse + cap.trace, Mount, MotionWE);
        LastWriteAppend(pulse, cap.trace, Mount, MotionWE);
      }
    }
  }

  /** When captures fail, they fail on the first pass, which is then the only
      one: the loop's run is the first capture's failed run. */
  lemma {:induction false} RoundsFailFirst(p: Plan, directory: string, clock: nat -> string, k: nat)
    requires 1 <= k
    requires !CaptureSucceeds(p.exposure, p.filter)
    ensures Rounds(p, directory, clock, k) == Capture(p.exposure, p.filter, directory, 1, clock(1))
    ensures Rounds(p, directory, clock, k).status.Raised?
    decreases k
  {
    CaptureMilestone(p.exposure, p.filter, directory, 1, clock(1));
    if k > 1 {
      RoundsFailFirst(p, directory, clock, k - 1);
    } else {
      assert Rounds(p, directory, clock, 0) == Run([], Returned);
      assert [] + Capture(p.exposure, p.filter, directory, 1, clock(1)).trace
          == Capture(p.exposure, p.filter, directory, 1, clock(1)).trace;
    }
  }

  /** When every capture succeeds, the loop returns. */
  lemma {:induction false} RoundsReturn(p: Plan, directory: string, clock: nat -> string, k: nat)
    requires CaptureSucceeds(p.exposure, p.filter)
    ensures Rounds(p, directory, clock, k).status == Returned
    decreases k
  {
    if k > 0 {
      RoundsReturn(p, directory, clock, k - 1);
      CaptureMilestone(p.exposure, p.filter, directory, k, clock(k));
    }
  }

  /** One more pass appends its dither (unless first) and its capture, when
      the earlier passes returned. */
  lemma RoundsStep(p: Plan, directory: string, clock: nat -> string, k: nat)
    requires 1 <= k
    requires Rounds(p, directory, clock, k - 1).status == Returned
    ensures Rounds(p, directory, clock, k).trace
         == Rounds(p, directory, clock, k - 1).trace
            + ((if k == 1 then [] else Dither()) + Capture(p.exposure, p.filter, directory, k, clock(k)).trace)
  {
  }

  /** A later pass adds `pulse + first` to the projection of the passes before it. */
  lemma PassPick<T>(prev: seq<Event>, pulseEvents: seq<Event>, cap: seq<Event>, n: nat,
                    pick: Event -> Option<T>, first: seq<T>, pulse: seq<T>)
    requires Pick(prev, pick) == first + Repeat(pulse + first, n)
    requires Pick(pulseEvents, pick) == pulse
    requires Pick(cap, pick) == first
    ensures Pick(prev + (pulseEvents + cap), pick) == first + Repeat(pulse + first, n + 1)
  {
    PickAppend(prev, pulseEvents + cap, pick);
    PickAppend(pulseEvents, cap, pick);
    RepeatOnceMore(first, pulse + first, n);
    assert first + Repeat(pulse + first, n) + (pulse + first) == first + Repeat(pulse + first, n + 1);
  }

  /** When every capture succeeds and a projection sees the same `first` in
      every capture and `pulse` in a dither, the loop projects to the first
      capture's part, then `pulse + first` once for each further pass. */
  lemma {:induction false} RoundsProject<T>(p: Plan, directory: string, clock: nat -> string, k: nat,
                                            pick: Event -> Option<T>, first: seq<T>, pulse: seq<T>)
    requires CaptureSucceeds(p.exposure, p.filter)
    requires forall i: nat :: Pick(Capture(p.exposure, p.filter, directory, i, clock(i)).trace, pick) == first
    requires Pick(Dither(), pick) == pulse
    ensures Pick(Rounds(p, directory, clock, k).trace, pick)
         == if k == 0 then [] else first + Repeat(pulse + first, k - 1)
    decreases k
  {
    if k > 0 {
      var prev := Rounds(p, directory, clock, k - 1).trace;
      var cap := Capture(p.exposure, p.filter, directory, k, clock(k)).trace;
      assert Pick(cap, pick) == first;
      RoundsReturn(p, directory, clock, k - 1);
      RoundsStep(p, directory, clock, k);
      RoundsProject(p, directory, clock, k - 1, pick, first, pulse);
      if k == 1 {
        assert Rounds(p, directory, clock, k).trace == [] + ([] + cap);
        assert [] + ([] + cap) == cap;
        assert Repeat(pulse + first, 0) == [];
      } else {
        PassPick(prev, Dither(), cap, k - 2, pick, first, pulse);
      }
    }
  }

  /** The loop's numeric writes: the first capture's slot and exposure, then
      for every further pass a dither's four axis writes and the same slot
      and exposure again. */
  lemma RoundsWrites(p: Plan, directory: string, clock: nat -> string, k: nat)
    requires CaptureSucceeds(p.exposure, p.filter)
    ensures Writes(Rounds(p, directory, clock, k).trace)
         == if k == 0 then []
            else ExposureWrites(p.exposure, p.filter)
                 + Repeat(DitherWrites + ExposureWrites(p.exposure, p.filter), k - 1)
  {
    forall i: nat
      ensures Writes(Capture(p.exposure, p.filter, directory, i, clock(i)).trace) == ExposureWrites(p.exposure, p.filter)
    {
      CaptureCommands(p.exposure, p.filter, directory, i, clock(i));
    }
    DitherStopsMount();
    RoundsProject(p, directory, clock, k, WriteOf, ExposureWrites(p.exposure, p.filter), DitherWrites);
  }

  /** The loop's waits: 2 s and the exposure plus 2 s for the first capture,
      then for every further pass 1 s after each dither pulse and the same
      two capture waits. */
  lemma RoundsWaits(p: Plan, directory: string, clock: nat -> string, k: nat)
    requires CaptureSucceeds(p.exposure, p.filter)
    ensures Waits(Rounds(p, directory, clock, k).trace)
         == if k == 0 then []
            else CaptureWaits(p.exposure) + Repeat(DitherWaits + CaptureWaits(p.exposure), k - 1)
  {
    forall i: nat
      ensures Waits(Capture(p.exposure, p.filter, directory, i, clock(i)).trace) == CaptureWaits(p.exposure)
    {
      CaptureCommands(p.exposure, p.filter, directory, i, clock(i));
    }
    DitherPauses();
    RoundsProject(p, directory, clock, k, WaitOf, CaptureWaits(p.exposure), DitherWaits);
  }

  /** The events before the first pass: the prompt if any, then the session
      directory, multi-star mode and the start of guiding. */
  function Setup(env: Env, directory: string): seq<Event> {
    Prompt(env) + [MakeDir(directory), Guider(EnableMultiStar), Guider(StartGuiding)]
  }

  /** The events after the last pass: stop guiding, then report completion. */
  function Teardown(directory: string): seq<Event> {
    [Guider(StopCapture), Log(Info, SequenceComplete(directory))]
  }

  /** An admitted sequence is its setup, its passes and, if no pass raised, its teardown. */
  lemma SequenceParts(p: Plan, env: Env)
    requires Proceeds(env)
    ensures var directory := SessionDir(p.baseDirectory, p.target, env.clock(0));
            var rounds := Rounds(p, directory, env.clock, Passes(p.count));
            var r := Sequence(p, env);
      && r.status == rounds.status
      && r.trace == Setup(env, directory) + rounds.trace
                    + (if rounds.status.Returned? then Teardown(directory) else [])
  {
  }

  /** The control points of the setup are the prompt (if any), the
      directory and the two guider requests; the teardown's is the stop. */
  lemma SetupCheckpoints(env: Env, directory: string)
    ensures Checkpoints(Setup(env, directory))
         == Prompt(env) + [MakeDir(directory), Guider(EnableMultiStar), Guider(StartGuiding)]
    ensures Checkpoints(Teardown(directory)) == [Guider(StopCapture)]
  {
    var ask := Prompt(env);
    var rest := [MakeDir(directory), Guider(EnableMultiStar), Guider(StartGuiding)];
    if |ask| == 1 {
      Pick1(ask[0], CheckpointOf);
    }
    Pick3(rest[0], rest[1], rest[2], CheckpointOf);
    PickAppend(ask, rest, CheckpointOf);
    Pick2(Guider(StopCapture), Log(Info, SequenceComplete(directory)), CheckpointOf);
  }

  /** Setup and teardown neither save, dither nor drive a numeric property. */
  lemma SetupQuiet(env: Env, directory: string)
    ensures Milestones(Setup(env, directory)) == [] && Milestones(Teardown(directory)) == []
    ensures Writes(Setup(env, directory)) == [] && Writes(Teardown(directory)) == []
  {
    var ask := Prompt(env);
    var rest := [MakeDir(directory), Guider(EnableMultiStar), Guider(StartGuiding)];
    if |ask| == 1 {
      Pick1(ask[0], MilestoneOf);
      Pick1(ask[0], WriteOf);
    }
    Pick3(rest[0], rest[1], rest[2], MilestoneOf);
    Pick3(rest[0], rest[1], rest[2], WriteOf);
    PickAppend(ask, rest, MilestoneOf);
    PickAppend(ask, rest, WriteOf);
    Pick2(Guider(StopCapture), Log(Info, SequenceComplete(directory)), MilestoneOf);
    Pick2(Guider(StopCapture), Log(Info, SequenceComplete(directory)), WriteOf);
  }

  /** Setup and teardown hold no fixed wait. */
  lemma SetupNoWaits(env: Env, directory: string)
    ensures Waits(Setup(env, directory)) == [] && Waits(Teardown(directory)) == []
  {
    var ask := Prompt(env);
    var rest := [MakeDir(directory), Guider(EnableMultiStar), Guider(StartGuiding)];
    if |ask| == 1 {
      Pick1(ask[0], WaitOf);
    }
    Pick3(rest[0], rest[1], rest[2], WaitOf);
    PickAppend(ask, rest, WaitOf);
    Pick2(Guider(StopCapture), Log(Info, SequenceComplete(directory)), WaitOf);
  }

  /** Setup and teardown issue only imaging commands. */
  lemma SetupOnlyImaging(env: Env, directory: string)
    ensures Strays(Setup(env, directory)) == [] && Strays(Teardown(directory)) == []
  {
    var ask := Prompt(env);
    var rest := [MakeDir(directory), Guider(EnableMultiStar), Guider(StartGuiding)];
    if |ask| == 1 {
      Pick1(ask[0], StrayOf);
    }
    Pick3(rest[0], rest[1], rest[2], StrayOf);
    PickAppend(ask, rest, StrayOf);
    Pick2(Guider(StopCapture), Log(Info, SequenceComplete(directory)), StrayOf);
  }

  /** A sequence whose target is unknown, or that the operator declines,
      touches no device, creates no directory and never guides: it only
      logs (after the prompt, when there was one). */
  lemma SequenceAbortsEarly(p: Plan, env: Env)
    requires !Proceeds(env)
    ensures var r := Sequence(p, env);
      && r.status == Returned
      && NoEffects(r.trace)
      && Milestones(r.trace) == []
      && r.trace == if env.coords.None? then [Log(Error, ObjectNotFound(p.target)), Log(Error, TargetNotFound)]
                    else [Ask(env.altitude), Log(Info, SequenceAborted)]
  {
    var r := Sequence(p, env);
    Pick2(r.trace[0], r.trace[1], MilestoneOf);
  }

  /** A sequence that passes the gate and whose captures all succeed is its
      setup, its passes and its teardown, and returns normally. */
  lemma SequenceCompletedParts(p: Plan, env: Env)
    requires Proceeds(env)
    requires Passes(p.count) == 0 || CaptureSucceeds(p.exposure, p.filter)
    ensures var directory := SessionDir(p.baseDirectory, p.target, env.clock(0));
            (Sequence(p, env)
             == Run(Setup(env, directory) + Rounds(p, directory, env.clock, Passes(p.count)).trace + Teardown(directory),
                    Returned))
  {
    var directory := SessionDir(p.baseDirectory, p.target, env.clock(0));
    SequenceParts(p, env);
    RoundsAlternate(p, directory, env.clock, Passes(p.count));
  }

  /** A sequence that gets past the gate and whose captures succeed (or that
      has no pass at all) returns normally; its control points are the
      prompt if any, the directory, multi-star mode, start of guiding and
      exactly one stop of guiding, in that order; and it ends with the
      completion log. */
  lemma SequenceCompletes(p: Plan, env: Env)
    requires Proceeds(env)
    requires Passes(p.count) == 0 || CaptureSucceeds(p.exposure, p.filter)
    ensures var r := Sequence(p, env);
            var directory := SessionDir(p.baseDirectory, p.target, env.clock(0));
      && r.status == Returned
      && Checkpoints(r.trace)
         == Prompt(env) + [MakeDir(directory), Guider(EnableMultiStar), Guider(StartGuiding), Guider(StopCapture)]
      && r.trace[|r.trace| - 1] == Log(Info, SequenceComplete(directory))
  {
    var directory := SessionDir(p.baseDirectory, p.target, env.clock(0));
    var a := Setup(env, directory);
    var b := Rounds(p, directory, env.clock, Passes(p.count)).trace;
    var c := Teardown(directory);
    SequenceCompletedParts(p, env);
    RoundsHoldNoCheckpoint(p, directory, env.clock, Passes(p.count));
    SetupCheckpoints(env, directory);
    FramedRun(Sequence(p, env).trace, a, b, c);
  }

  /** A trace made of a head, a checkpoint-free middle and a tail has the
      head's and the tail's control points, and ends as the tail does. */
  lemma FramedRun(t: seq<Event>, a: seq<Event>, b: seq<Event>, c: seq<Event>)
    requires t == a + b + c && Checkpoints(b) == [] && c != []
    ensures Checkpoints(t) == Checkpoints(a) + Checkpoints(c)
    ensures t[|t| - 1] == c[|c| - 1]
  {
    PickParts(a, b, c, CheckpointOf);
    assert Checkpoints(a) + Checkpoints(b) == Checkpoints(a);
    assert t == (a + b) + c;
  }

  /** The frames of a completed sequence are the frames of its passes: one
      per pass, numbered from 1 and named by the session directory, the
      filter and the time of each capture, with a dither between every two. */
  lemma SequenceAlternates(p: Plan, env: Env)
    requires Proceeds(env)
    requires Passes(p.count) == 0 || CaptureSucceeds(p.exposure, p.filter)
    ensures Alternates(Milestones(Sequence(p, env).trace),
                       SessionDir(p.baseDirectory, p.target, env.clock(0)), p.filter, env.clock, Passes(p.count))
  {
    var directory := SessionDir(p.baseDirectory, p.target, env.clock(0));
    var a := Setup(env, directory);
    var b := Rounds(p, directory, env.clock, Passes(p.count)).trace;
    var c := Teardown(directory);
    SequenceCompletedParts(p, env);
    RoundsAlternate(p, directory, env.clock, Passes(p.count));
    SetupQuiet(env, directory);
    PickParts(a, b, c, MilestoneOf);
    assert Milestones(Sequence(p, env).trace) == Milestones(b);
  }

  /** A completed sequence saves one frame per iteration of `range(count)`
      (none for a count of zero or less) and dithers one time fewer. */
  lemma SequenceCounts(p: Plan, env: Env)
    requires Proceeds(env)
    requires Passes(p.count) == 0 || CaptureSucceeds(p.exposure, p.filter)
    ensures Frames(Milestones(Sequence(p, env).trace)) == if p.count <= 0 then 0 else p.count
    ensures Dithers(Milestones(Sequence(p, env).trace)) == if p.count <= 1 then 0 else p.count - 1
  {
    SequenceAlternates(p, env);
    InterleavedCounts(Milestones(Sequence(p, env).trace), Passes(p.count));
  }

  /** Every capture of a completed sequence commands the filter's slot and
      the requested exposure: its numeric writes are those of the first
      capture, then a dither and a capture for each further exposure. */
  lemma SequenceWrites(p: Plan, env: Env)
    requires Proceeds(env)
    requires Passes(p.count) == 0 || CaptureSucceeds(p.exposure, p.filter)
    ensures Writes(Sequence(p, env).trace)
         == if p.count <= 0 then []
            else ExposureWrites(p.exposure, p.filter)
                 + Repeat(DitherWrites + ExposureWrites(p.exposure, p.filter), p.count - 1)
  {
    var directory := SessionDir(p.baseDirectory, p.target, env.clock(0));
    var b := Rounds(p, directory, env.clock, Passes(p.count)).trace;
    SequenceCompletedParts(p, env);
    if Passes(p.count) != 0 {
      RoundsWrites(p, directory, env.clock, Passes(p.count));
    }
    SetupQuiet(env, directory);
    PickMiddle(Setup(env, directory), b, Teardown(directory), WriteOf);
  }

  /** A completed sequence waits only inside its passes: 2 s for the wheel
      and the exposure plus 2 s per capture, and 1 s after each dither pulse. */
  lemma SequenceWaits(p: Plan, env: Env)
    requires Proceeds(env)
    requires Passes(p.count) == 0 || CaptureSucceeds(p.exposure, p.filter)
    ensures Waits(Sequence(p, env).trace)
         == if p.count <= 0 then []
            else CaptureWaits(p.exposure) + Repeat(DitherWaits + CaptureWaits(p.exposure), p.count - 1)
  {
    var directory := SessionDir(p.baseDirectory, p.target, env.clock(0));
    var b := Rounds(p, directory, env.clock, Passes(p.count)).trace;
    SequenceCompletedParts(p, env);
    if Passes(p.count) != 0 {
      RoundsWaits(p, directory, env.clock, Passes(p.count));
    }
    SetupNoWaits(env, directory);
    PickMiddle(Setup(env, directory), b, Teardown(directory), WaitOf);
  }

  /** The directory a session creates is `{base_directory}/{target}_{time}`,
      and each frame of an alternation is saved directly inside it. */
  lemma FramesInDirectory(ms: seq<Milestone>, directory: string, filter: string, clock: nat -> string, n: nat)
    requires Alternates(ms, directory, filter, clock, n)
    ensures forall j :: 0 <= j < |ms| && ms[j].Saved? ==>
              |directory| < |ms[j].path| && ms[j].path[..|directory| + 1] == directory + "/"
  {
    forall j | 0 <= j < |ms| && ms[j].Saved?
      ensures |directory| < |ms[j].path| && ms[j].path[..|directory| + 1] == directory + "/"
    {
      var rest := filter + "_" + clock(j / 2 + 1) + "_" + Pad4(j / 2 + 1) + ".fits";
      assert ms[j].path == (directory + "/") + rest;
    }
  }

  /** A completed sequence creates `{base_directory}/{target}_{clock(0)}`
      right after the prompt, and saves every frame directly inside it. */
  lemma SequenceUsesSessionDir(p: Plan, env: Env)
    requires Proceeds(env)
    requires Passes(p.count) == 0 || CaptureSucceeds(p.exposure, p.filter)
    ensures var directory := SessionDir(p.baseDirectory, p.target, env.clock(0));
            var cs := Checkpoints(Sequence(p, env).trace);
            var ms := Milestones(Sequence(p, env).trace);
      && |Prompt(env)| < |cs| && cs[|Prompt(env)|] == MakeDir(directory)
      && directory == p.baseDirectory + "/" + p.target + "_" + env.clock(0)
      && forall j :: 0 <= j < |ms| && ms[j].Saved? ==>
           |directory| < |ms[j].path| && ms[j].path[..|directory| + 1] == directory + "/"
  {
    var directory := SessionDir(p.baseDirectory, p.target, env.clock(0));
    SequenceCompletes(p, env);
    SequenceAlternates(p, env);
    FramesInDirectory(Milestones(Sequence(p, env).trace), directory, p.filter, env.clock, Passes(p.count));
  }

  /** Whatever the plan and whatever happens, every effect of a sequence is
      the session directory, a guider request, a numeric property write or
      the camera's save path: it never switches the light, cover or roof,
      never slews and never opens the viewer. */
  lemma SequenceOnlyImaging(p: Plan, env: Env)
    ensures Strays(Sequence(p, env).trace) == []
    ensures OnlyImaging(Sequence(p, env).trace)
  {
    var t := Sequence(p, env).trace;
    if Proceeds(env) {
      var directory := SessionDir(p.baseDirectory, p.target, env.clock(0));
      var a := Setup(env, directory);
      var rounds := Rounds(p, directory, env.clock, Passes(p.count));
      var c := if rounds.status.Returned? then Teardown(directory) else [];
      SequenceParts(p, env);
      RoundsOnlyImaging(p, directory, env.clock, Passes(p.count));
      SetupOnlyImaging(env, directory);
      PickParts(a, rounds.trace, c, StrayOf);
    } else {
      SequenceAbortsEarly(p, env);
      Pick2(t[0], t[1], StrayOf);
    }
    StraysEmpty(t);
  }

  /** In a completed sequence every frame and every dither comes after the
      start of guiding and before the single stop of guiding, which is the
      second-to-last event. */
  lemma SequenceGuidesAroundFrames(p: Plan, env: Env)
    requires Proceeds(env)
    requires Passes(p.count) == 0 || CaptureSucceeds(p.exposure, p.filter)
    ensures var r := Sequence(p, env);
            var o := |Prompt(env)| + 3;
      && o + 2 <= |r.trace|
      && r.trace[o - 1] == Guider(StartGuiding)
      && r.trace[|r.trace| - 2] == Guider(StopCapture)
      && Milestones(r.trace[..o]) == []
      && Milestones(r.trace[|r.trace| - 2..]) == []
      && Milestones(r.trace[o..|r.trace| - 2]) == Milestones(r.trace)
  {
    var directory := SessionDir(p.baseDirectory, p.target, env.clock(0));
    var a := Setup(env, directory);
    var b := Rounds(p, directory, env.clock, Passes(p.count)).trace;
    var c := Teardown(directory);
    SequenceCompletedParts(p, env);
    SetupQuiet(env, directory);
    FramedMilestones(Sequence(p, env).trace, a, b, c);
  }

  /** A trace made of a milestone-free head, a middle and a two-event
      milestone-free tail has all its milestones in the middle. */
  lemma FramedMilestones(t: seq<Event>, a: seq<Event>, b: seq<Event>, c: seq<Event>)
    requires t == a + b + c && Milestones(a) == [] && Milestones(c) == [] && |c| == 2
    ensures |a| + 2 <= |t| && t[|t| - 2] == c[0]
    ensures a != [] ==> t[|a| - 1] == a[|a| - 1]
    ensures Milestones(t[..|a|]) == [] && Milestones(t[|t| - 2..]) == []
    ensures Milestones(t[|a|..|t| - 2]) == Milestones(t)
  {
    PickParts(a, b, c, MilestoneOf);
    assert t[..|a|] == a;
    assert t[|a|..|t| - 2] == b;
    assert t[|t| - 2..] == c;
  }

  /** A completed sequence leaves both mount axes at rest. */
  lemma SequenceLeavesMountAtRest(p: Plan, env: Env)
    requires Proceeds(env)
    requires Passes(p.count) == 0 || CaptureSucceeds(p.exposure, p.filter)
    ensures AtRest(Sequence(p, env).trace, Mount, MotionNS)
    ensures AtRest(Sequence(p, env).trace, Mount, MotionWE)
  {
    var directory := SessionDir(p.baseDirectory, p.target, env.clock(0));
    var a := Setup(env, directory);
    var b := Rounds(p, directory, env.clock, Passes(p.count)).trace;
    var c := Teardown(directory);
    SequenceCompletedParts(p, env);
    RoundsLeaveMountAtRest(p, directory, env.clock, Passes(p.count));
    SetupQuiet(env, directory);
    LastWriteAppend(a + b, c, Mount, MotionNS);
    LastWriteAppend(a + b, c, Mount, MotionWE);
    LastWriteAppend(a, b, Mount, MotionNS);
    LastWriteAppend(a, b, Mount, MotionWE);
  }

  /** With at least one pass and a capture that cannot succeed, the first
      capture raises: an unknown filter before any capture command, a
      negative wait after the exposure command. Nothing is saved, and since
      the exception escapes the loop, guiding is started but never stopped. */
  lemma SequenceStopsOnCaptureFault(p: Plan, env: Env)
    requires Proceeds(env)
    requires 1 <= Passes(p.count)
    requires !CaptureSucceeds(p.exposure, p.filter)
    ensures var r := Sequence(p, env);
            var directory := SessionDir(p.baseDirectory, p.target, env.clock(0));
      && r.status == Raised(if p.filter !in Filters then KeyError(p.filter) else NegativeSleep(p.exposure + 2.0))
      && Checkpoints(r.trace) == Prompt(env) + [MakeDir(directory), Guider(EnableMultiStar), Guider(StartGuiding)]
      && Milestones(r.trace) == []
      && (p.filter !in Filters ==> r.trace == Setup(env, directory))
  {
    var directory := SessionDir(p.baseDirectory, p.target, env.clock(0));
    var a := Setup(env, directory);
    var rounds := Rounds(p, directory, env.clock, Passes(p.count));
    SequenceParts(p, env);
    RoundsFailFirst(p, directory, env.clock, Passes(p.count));
    CaptureSteps(p.exposure, p.filter, directory, 1, env.clock(1));
    CaptureMilestone(p.exposure, p.filter, directory, 1, env.clock(1));
    RoundsHoldNoCheckpoint(p, directory, env.clock, Passes(p.count));
    SetupCheckpoints(env, directory);
    SetupQuiet(env, directory);
    HeadOnly(Sequence(p, env).trace, a, rounds.trace);
  }

  /** A trace made of a head and a middle with neither control points nor
      milestones has the head's. */
  lemma HeadOnly(t: seq<Event>, a: seq<Event>, b: seq<Event>)
    requires t == a + b && Checkpoints(b) == [] && Milestones(b) == []
    ensures Checkpoints(t) == Checkpoints(a) && Milestones(t) == Milestones(a)
  {
    PickAppend(a, b, CheckpointOf);
    PickAppend(a, b, MilestoneOf);
  }

  /** The altitudes a handler prompted with, when its prompt is followed by prompt-free events. */
  lemma PromptFirst(env: Env, rest: seq<Event>)
    requires Asks(rest) == []
    ensures Asks(Prompt(env) + rest)
         == if env.coords.Some? && env.altitude < MinAltitude then [env.altitude] else []
  {
    var ask := Prompt(env);
    PickAppend(ask, rest, AskOf);
    if |ask| == 1 {
      Pick1(ask[0], AskOf);
    }
  }

  /** The slew command prompts the operator once, with the target's
      altitude, when a known target is below the threshold, and never otherwise. */
  lemma TargetPrompts(name: string, env: Env)
    ensures Asks(Target(name, env).trace)
         == if env.coords.Some? && env.altitude < MinAltitude then [env.altitude] else []
  {
    TargetCheckpoints(name, env);
    AsksOfCheckpoints(Target(name, env).trace);
    PromptFirst(env, []);
    assert Prompt(env) + [] == Prompt(env);
  }

  /** A trace whose control points are the prompt followed by prompt-free
      control points prompts exactly as the gate says. */
  lemma PromptedAsCheckpointsSay(t: seq<Event>, env: Env, rest: seq<Event>)
    requires Checkpoints(t) == Prompt(env) + rest
    requires forall i :: 0 <= i < |rest| ==> !rest[i].Ask?
    ensures Asks(t) == if env.coords.Some? && env.altitude < MinAltitude then [env.altitude] else []
  {
    AsksOfCheckpoints(t);
    NoAsks(rest);
    PromptFirst(env, rest);
  }

  /** The prompts of an admitted sequence, read off its control points. */
  lemma AdmittedSequencePrompts(p: Plan, env: Env)
    requires Proceeds(env)
    ensures Asks(Sequence(p, env).trace)
         == if env.coords.Some? && env.altitude < MinAltitude then [env.altitude] else []
  {
    var directory := SessionDir(p.baseDirectory, p.target, env.clock(0));
    var rest := [MakeDir(directory), Guider(EnableMultiStar), Guider(StartGuiding)];
    if Passes(p.count) == 0 || CaptureSucceeds(p.exposure, p.filter) {
      SequenceCompletes(p, env);
      PromptedAsCheckpointsSay(Sequence(p, env).trace, env, rest + [Guider(StopCapture)]);
    } else {
      SequenceStopsOnCaptureFault(p, env);
      PromptedAsCheckpointsSay(Sequence(p, env).trace, env, rest);
    }
  }

  /** The imaging sequence prompts the operator exactly as the slew command
      does, whether it then aborts, completes or fails in a capture. */
  lemma SequencePrompts(p: Plan, env: Env)
    ensures Asks(Sequence(p, env).trace)
         == if env.coords.Some? && env.altitude < MinAltitude then [env.altitude] else []
  {
    if Proceeds(env) {
      AdmittedSequencePrompts(p, env);
    } else {
      var t := Sequence(p, env).trace;
      SequenceAbortsEarly(p, env);
      Pick2(t[0], t[1], AskOf);
    }
  }

  /** Every path through the imaging sequence leaves at least two events. */
  lemma SequenceNotSilent(p: Plan, env: Env)
    ensures 2 <= |Sequence(p, env).trace|
  {
    if !Proceeds(env) {
      SequenceAbortsEarly(p, env);
    } else if Passes(p.count) == 0 || CaptureSucceeds(p.exposure, p.filter) {
      SequenceCompletes(p, env);
    } else {
      SequenceStopsOnCaptureFault(p, env);
    }
  }

  /** The guiding daemon's replies do not change what a sequence does. */
  lemma SequenceIgnoresGuideReplies(p: Plan, env: Env, replies: GuideOp -> string)
    ensures Sequence(p, env.(guideStatus := replies)) == Sequence(p, env)
  {
  }
}

=== FILE: trace.dfy ===
/** The vocabulary of what an observatory command does, in the order it does
    it: INDI property writes, requests to the guiding daemon, directory
    creation, the image viewer launch, fixed sleeps, the operator prompt and
    log lines. Every handler of the controller is modelled as a function
    producing a `Run`: the events it caused and how it ended. */
module Trace {

  datatype Option<+T> = None | Some(value: T)

  /** The observatory's fixed devices. */
  datatype Instrument = Mount | FilterWheel | Camera | Focuser | RedLight | TelescopeCover | Roof {
    /** The INDI device name the controller addresses. */
    function IndiName(): string {
      match this
      case Mount => "iOptron IEQ Pro"
      case FilterWheel => "ZWO EFW"
      case Camera => "ZWO CCD ASI183MM Pro"
      case Focuser => "ZWO EAF"
      case RedLight => "Red Light"
      case TelescopeCover => "Telescope Cover"
      case Roof => "Observatory Roof"
    }
  }

  /** Each device is addressed under a name of its own. */
  lemma IndiNamesDistinct(a: Instrument, b: Instrument)
    ensures a.IndiName() == b.IndiName() <==> a == b
  {
  }

  /** A fire-and-forget INDI property write; the driver's acceptance is never read back. */
  datatype DeviceCmd =
    | SetSwitch(device: Instrument, property: string, state: string)
    | SetNumber(device: Instrument, property: string, element: string, number: real)
    | SetCoords(device: Instrument, property: string, ra: real, dec: real)
    | SetText(device: Instrument, property: string, element: string, text: string)

  /** A request to the guiding daemon. Its status reply is not part of the trace. */
  datatype GuideOp = EnableMultiStar | StartGuiding | StopCapture

  datatype Level = Info | Error

  /** Which log line was written; reals stand for the formatted numbers. */
  datatype Note =
    | PropertySet(device: Instrument, property: string, state: string)
    | ObjectNotFound(name: string)
    | TargetNotFound
    | SlewAborted
    | SequenceAborted
    | Slewed(ra: real, dec: real)
    | Captured(path: string)
    | FocusComplete
    | SequenceComplete(directory: string)
    | UnknownCommand(name: string)

  datatype Event =
    | Device(cmd: DeviceCmd)
    | Guider(op: GuideOp)
    | MakeDir(path: string)
    | Viewer(path: string)
    | Sleep(seconds: real)
    | Ask(altitude: real)
    | Log(level: Level, note: Note)
  {
    /** The events that act on something outside the controller process. */
    predicate IsEffect() {
      Device? || Guider? || MakeDir? || Viewer?
    }
  }

  /** A Python exception that escapes a handler. */
  datatype Fault =
    | KeyError(key: string)          // `filters[filter_name]` on an unknown filter
    | NegativeSleep(seconds: real)   // `time.sleep` of a negative length

  datatype Status = Returned | Raised(fault: Fault)

  datatype Run = Run(trace: seq<Event>, status: Status) {
    /** Python statement sequencing: `next` happens only if this run did not raise. */
    function Then(next: Run): Run {
      if status.Raised? then this else Run(trace + next.trace, next.status)
    }
  }

  function One<T>(o: Option<T>): seq<T> {
    match o
    case Some(x) => [x]
    case None => []
  }

  /** The events of `t` that `pick` selects, each mapped to what it picks, in order. */
  function Pick<T>(t: seq<Event>, pick: Event -> Option<T>): (r: seq<T>)
    ensures |r| <= |t|
    decreases |t|
  {
    if |t| == 0 then [] else One(pick(t[0])) + Pick(t[1..], pick)
  }

  lemma {:induction false} PickAppend<T>(a: seq<Event>, b: seq<Event>, pick: Event -> Option<T>)
    ensures Pick(a + b, pick) == Pick(a, pick) + Pick(b, pick)
    decreases |a|
  {
    if |a| == 0 {
      assert a + b == b;
    } else {
      assert (a + b)[1..] == a[1..] + b;
      PickAppend(a[1..], b, pick);
    }
  }

  lemma PickParts<T>(a: seq<Event>, b: seq<Event>, c: seq<Event>, pick: Event -> Option<T>)
    ensures Pick(a + b + c, pick) == Pick(a, pick) + Pick(b, pick) + Pick(c, pick)
  {
    PickAppend(a + b, c, pick);
    PickAppend(a, b, pick);
  }

  /** When the outer parts project to nothing, the whole projects to the middle's projection. */
  lemma PickMiddle<T>(a: seq<Event>, b: seq<Event>, c: seq<Event>, pick: Event -> Option<T>)
    requires Pick(a, pick) == [] && Pick(c, pick) == []
    ensures Pick(a + b + c, pick) == Pick(b, pick)
  {
    PickParts(a, b, c, pick);
  }

  /* Projections of short literal traces, one event at a time. */

  lemma Pick1<T>(a: Event, pick: Event -> Option<T>)
    ensures Pick([a], pick) == One(pick(a))
  {
  }

  lemma Pick2<T>(a: Event, b: Event, pick: Event -> Option<T>)
    ensures Pick([a, b], pick) == One(pick(a)) + One(pick(b))
  {
    assert [a, b][1..] == [b];
    Pick1(b, pick);
  }

  lemma Pick3<T>(a: Event, b: Event, c: Event, pick: Event -> Option<T>)
    ensures Pick([a, b, c], pick) == One(pick(a)) + One(pick(b)) + One(pick(c))
  {
    assert [a, b, c][1..] == [b, c];
    Pick2(b, c, pick);
  }

  lemma Pick4<T>(a: Event, b: Event, c: Event, d: Event, pick: Event -> Option<T>)
    ensures Pick([a, b, c, d], pick) == One(pick(a)) + One(pick(b)) + One(pick(c)) + One(pick(d))
  {
    assert [a, b, c, d] == [a, b] + [c, d];
    PickAppend([a, b], [c, d], pick);
    Pick2(a, b, pick);
    Pick2(c, d, pick);
  }

  lemma Pick6<T>(a: Event, b: Event, c: Event, d: Event, e: Event, f: Event, pick: Event -> Option<T>)
    ensures Pick([a, b, c, d, e, f], pick)
         == One(pick(a)) + One(pick(b)) + One(pick(c)) + One(pick(d)) + One(pick(e)) + One(pick(f))
  {
    assert [a, b, c, d, e, f] == [a, b, c] + [d, e, f];
    PickAppend([a, b, c], [d, e, f], pick);
    Pick3(a, b, c, pick);
    Pick3(d, e, f, pick);
  }

  function EffectOf(e: Event): Option<Event> {
    if e.IsEffect() then Some(e) else None
  }

  function CheckpointOf(e: Event): Option<Event> {
    if e.Ask? || e.MakeDir? || e.Guider? then Some(e) else None
  }

  /** The outward-facing part of a trace: device writes, guider requests, directories, viewer. */
  function Effects(t: seq<Event>): seq<Event> {
    Pick(t, EffectOf)
  }

  /** The control points of a trace, in order: the operator prompt, the
      session directory and the requests to the guiding daemon. */
  function Checkpoints(t: seq<Event>): seq<Event> {
    Pick(t, CheckpointOf)
  }

  predicate NoEffects(t: seq<Event>) {
    forall i :: 0 <= i < |t| ==> !t[i].IsEffect()
  }

  function AskOf(e: Event): Option<real> {
    if e.Ask? then Some(e.altitude) else None
  }

  /** The altitudes the operator was prompted with in `t`, in order. */
  function Asks(t: seq<Event>): seq<real> {
    Pick(t, AskOf)
  }

  /** A trace without a prompt event has no prompts to list. */
  lemma {:induction false} NoAsks(t: seq<Event>)
    requires forall i :: 0 <= i < |t| ==> !t[i].Ask?
    ensures Asks(t) == []
    decreases |t|
  {
    if |t| > 0 {
      NoAsks(t[1..]);
    }
  }

  /** Prompts are control points, so they can be read off the checkpoints. */
  lemma {:induction false} AsksOfCheckpoints(t: seq<Event>)
    ensures Asks(Checkpoints(t)) == Asks(t)
    decreases |t|
  {
    if |t| > 0 {
      AsksOfCheckpoints(t[1..]);
      var head := One(CheckpointOf(t[0]));
      PickAppend(head, Checkpoints(t[1..]), AskOf);
      if |head| == 1 {
        Pick1(t[0], AskOf);
      }
    }
  }

  function WaitOf(e: Event): Option<real> {
    if e.Sleep? then Some(e.seconds) else None
  }

  /** The lengths of the fixed waits in `t`, in order. */
  function Waits(t: seq<Event>): seq<real> {
    Pick(t, WaitOf)
  }

  /** `s` repeated `n` times. */
  function Repeat<T>(s: seq<T>, n: nat): (r: seq<T>)
    ensures |r| == n * |s|
  {
    if n == 0 then [] else Repeat(s, n - 1) + s
  }

  lemma RepeatOnceMore<T>(head: seq<T>, s: seq<T>, n: nat)
    ensures head + Repeat(s, n) + s == head + Repeat(s, n + 1)
  {
  }

  /** A numeric property write as (device, property, value). */
  datatype Write = Write(device: Instrument, property: string, value: real)

  function WriteOf(e: Event): Option<Write> {
    if e.Device? && e.cmd.SetNumber? then Some(Write(e.cmd.device, e.cmd.property, e.cmd.number)) else None
  }

  /** The numeric property writes of a trace, in order. */
  function Writes(t: seq<Event>): seq<Write> {
    Pick(t, WriteOf)
  }

  /** The value of the last write in `ws` to `property` of `device`, if any. */
  function Latest(ws: seq<Write>, device: Instrument, property: string): Option<real>
    decreases |ws|
  {
    if |ws| == 0 then None
    else
      var w := ws[|ws| - 1];
      if w.device == device && w.property == property then Some(w.value)
      else Latest(ws[..|ws| - 1], device, property)
  }

  lemma {:induction false} LatestAppend(a: seq<Write>, b: seq<Write>, device: Instrument, property: string)
    ensures Latest(a + b, device, property)
         == if Latest(b, device, property).Some? then Latest(b, device, property) else Latest(a, device, property)
    decreases |b|
  {
    if |b| == 0 {
      assert a + b == a;
    } else {
      assert (a + b)[..|a + b| - 1] == a + b[..|b| - 1];
      LatestAppend(a, b[..|b| - 1], device, property);
    }
  }

  /** A property has no latest value exactly when no write in `ws` is to it. */
  lemma {:induction false} LatestNone(ws: seq<Write>, device: Instrument, property: string)
    ensures Latest(ws, device, property) == None
        <==> forall i :: 0 <= i < |ws| ==> !(ws[i].device == device && ws[i].property == property)
    decreases |ws|
  {
    if |ws| > 0 {
      var init := ws[..|ws| - 1];
      LatestNone(init, device, property);
      forall i | 0 <= i < |init| ensures init[i] == ws[i] {
      }
    }
  }

  /** The value most recently written to the numeric property `property` of `device`, if any. */
  function LastWrite(t: seq<Event>, device: Instrument, property: string): Option<real> {
    Latest(Writes(t), device, property)
  }

  /** The last write to a property in `a + b` is the last in `b`, or else the last in `a`. */
  lemma LastWriteAppend(a: seq<Event>, b: seq<Event>, device: Instrument, property: string)
    ensures LastWrite(a + b, device, property)
         == if LastWrite(b, device, property).Some? then LastWrite(b, device, property)
            else LastWrite(a, device, property)
  {
    PickAppend(a, b, WriteOf);
    LatestAppend(Writes(a), Writes(b), device, property);
  }

  /** A property is at rest when it was never driven or was last set to 0. */
  predicate AtRest(t: seq<Event>, device: Instrument, property: string) {
    LastWrite(t, device, property) == None || LastWrite(t, device, property) == Some(0.0)
  }
}
